=== FILE: README.md ===
# Stochastic next-frame prediction: the control skeleton

This project models the discrete core of tensor2tensor's stochastic video
predictor (`next_frame.py`): SV2P (`NextFrameStochastic`), its two-frame
variant and the SVG-style "Emily" variant. It proves properties of that model.

Every neural layer is an uninterpreted function parameter over abstract
tensor types. This covers convolutions, recurrent cells, the encoder and
decoder, and the CDNA/DNA transformations. What remains is modelled, with
the differences listed under "Left out":

- the three sequence drivers, which thread recurrent state, latents and
  generated frames through time;
- the scheduled-sampling choice between ground-truth and generated inputs;
- the mask compositing at the end of the predictive tower, over `real`;
- the KL weight `beta`, the KL term and the extra loss;
- the output windowing and the small helpers: `tinyify`, the latent window,
  `get_input_if_exists` and `swap_time_and_batch_axes`.

Images, rewards and actions share one abstract tensor type `T`. This matters:
the scan driver packs its elements as `(images, actions, rewards)` but its
step unpacks them as `(image, reward, action)`. With one type, the model
reproduces that mismatch as written. From the second step on, the reward slot
carries the action and the action slot carries the reward
(`ScanDriver.RewardSlotCarriesActions`).

Python sequence semantics are modelled explicitly in `PySeq`: negative and
out-of-range slice bounds, `zip` truncation and negative list indices.

An `UnboundLocalError` becomes an error value of `Hparams.Error`, not a
precondition:

- `ScanDriver.Run` without `stochastic_model` reaches `[latent_mean]` unbound
  and gives `LatentUnbound`.
- `Loss.BetaAsWritten` on an unrecognised loss schedule leaves `beta` unbound
  and gives `UnknownSchedule`.

Modules follow the program's structure:

- `Wrappers`, `PySeq`: option/result types and Python sequence semantics.
- `Hparams`: configuration, errors, `GlobalStep`, `Tinyify`, the latent window.
- `Shapes`: the axis swap and the zero-filled fallback, at shape level.
- `ScheduledSampling`: `get_scheduled_sample_func` (policy choice) and
  `get_scheduled_sample_inputs`.
- `Compositing`: the candidate list, the DNA mask check and the mask blend.
- `Towers`: tower signatures, the latent tower's evaluation zeros and the
  predictive tower's discrete part.
- `Step`: one time step shared by the scan and two-frame drivers.
- `ScanDriver`, `TwoFrameDriver`, `EmilyDriver`: the three `construct_model`s.
- `Loss`: `beta` as written, `beta` with the intended guard, the KL term and
  the extra loss.
- `Body`: `body` over time-major streams; `Forward` with the source's
  `beta`, `GuardedForward` with the intended guard.

Two facts about the order of checks in the code shape the model:

- `body` computes `beta`, and so checks `anneal_end`, only after
  `construct_model` has built the whole driver (next_frame.py:671-695). So
  `Body.Forward` reports a driver error, such as the DNA mask error, ahead of
  the schedule error.
- The guard at next_frame.py:695 raises only when
  `anneal_end < num_iterations_2nd_stage`. Its error message asks for the
  strict order `num_iterations_2nd_stage < anneal_end`. `Loss.BetaAsWritten`
  follows the guard and `Body.Forward` uses it; see Findings.

## Model

| member | source | states |
|---|---|---|
| Hparams.GlobalStep | tensor2tensor/models/research/next_frame.py:677-680 | a missing global step is replaced by the sentinel 100000; a present one is used unchanged |
| Hparams.Tinyify | tensor2tensor/models/research/next_frame.py:183-186 | tiny mode turns every entry of a size schedule into 1 and keeps its length; otherwise the schedule is returned as given |
| Hparams.LatentNumFrames | tensor2tensor/models/research/next_frame.py:210-213 | a configured latent frame count is used as is; 0 means every input and target frame |
| Hparams.LatentWindow | tensor2tensor/models/research/next_frame.py:210-215 | the latent tower sees the first min(latent_num_frames, T) frames, a prefix of the sequence |
| Hparams.DefaultLatentWindowIsWholeSequence | tensor2tensor/models/research/next_frame.py:210-215 | with the default 0, a sequence of in+out frames is seen whole |
| Hparams.ConfiguredLatentWindow | tensor2tensor/models/research/next_frame.py:210-215 | a configured window of n frames takes the first n frames, or all of a shorter sequence |
| Shapes.SwapTimeAndBatchAxes | tensor2tensor/models/research/next_frame.py:637-639 | the first two dimensions are exchanged and the rest kept; a rank below two cannot be transposed |
| Shapes.SwapIsInvolution | tensor2tensor/models/research/next_frame.py:637-639 | swapping twice restores the shape, and a swap permutes the dimensions |
| Shapes.InputShapeIfExists | tensor2tensor/models/research/next_frame.py:630-635 | a missing feature is a zero tensor of time-major shape (frames, batch, 1, hidden_size); a present one is swapped |
| ScheduledSampling.SchedulePolicy | tensor2tensor/models/research/next_frame.py:567-595 | the sampling policy is fed the global step, or the sentinel when missing; mode "prob" selects probability decay with the decay steps, and any other mode selects the ground-truth count with k |
| ScheduledSampling.SelectInputs | tensor2tensor/models/research/next_frame.py:597-628 | ground truth during warm-start, else the generated items outside training, else the position-wise mix truncated to the shorter list |
| ScheduledSampling.SelectKeepsPositions | tensor2tensor/models/research/next_frame.py:614-628 | for equal-length lists the result has that length, and position i holds the ground truth, the generated item or their mix at i |
| ScheduledSampling.MixUsedOnlyWhenSampling | tensor2tensor/models/research/next_frame.py:622-626 | the sampling draw is irrelevant unless training past warm-start; warm-start wins over evaluation |
| Compositing.Candidates | tensor2tensor/models/research/next_frame.py:446-461 | CDNA mode appends the CDNA candidates to the direct guess; DNA mode fails exactly when num_masks is not 1 and otherwise uses the DNA candidate alone; other modes use the direct guess alone |
| Compositing.Blend | tensor2tensor/models/research/next_frame.py:474-475 | the accumulation loop adds, at every position, the reference sum of the remaining candidate-times-mask products |
| Compositing.Composite | tensor2tensor/models/research/next_frame.py:471-476 | output = mask 0 times the input image plus the sum of candidate k times mask k+1 over the min(candidates, masks-1) pairs zip forms |
| Compositing.CompositeIsConvex | tensor2tensor/models/research/next_frame.py:463-476 | with nonnegative mask weights summing to 1 and a candidate for each channel after the first, every output position lies within any bounds holding for the input image and the candidates |
| Compositing.CompositeIgnoresSurplus | tensor2tensor/models/research/next_frame.py:474-475 | once every mask channel has a candidate, appending a candidate leaves the output unchanged |
| Compositing.CdnaLastCandidateUnused | tensor2tensor/models/research/next_frame.py:446-476 | in CDNA mode with num_masks CDNA candidates, replacing the last one by anything leaves the output unchanged |
| Towers.LatentTower | tensor2tensor/models/research/next_frame.py:188-245 | in training the statistics come from the convolutions over the latent window; otherwise they are zero whatever the frames |
| Towers.EvalLatentIgnoresFrames | tensor2tensor/models/research/next_frame.py:241-243 | outside training the latent statistics are the same for any frames and any convolution stack |
| Towers.PredictiveTower | tensor2tensor/models/research/next_frame.py:446-477 | DNA with num_masks other than 1 raises the DNA error, and the DNA error arises only then; any other failure is a shape mismatch; a result is the mask composite of the input image and the candidates, with the layers' new state and num_masks+1 masks |
| Towers.FittingTowerNeverFails | tensor2tensor/models/research/next_frame.py:446-477 | a tower whose mode passes the DNA check and whose layers always fit the input image returns a result on every input |
| Towers.TowerOutputIsConvex | tensor2tensor/models/research/next_frame.py:463-476 | under normalised nonnegative masks the tower's prediction is a convex combination of input image and candidates |
| Step.ModelOf | tensor2tensor/models/research/next_frame.py:506-509 | context frames are the input frame count, the draw is the configured policy's, and the reward tower is used exactly when reward prediction is on |
| Step.Choose | tensor2tensor/models/research/next_frame.py:514-520 | ground truth before step context_frames; after it the previous predictions outside training and the draws for this step (item 0 the image, item 1 the reward) in training |
| Step.PassThroughReward | tensor2tensor/models/research/next_frame.py:531-535 | without reward prediction a step reports its chosen input reward and leaves the reward states as they were |
| Step.Advance | tensor2tensor/models/research/next_frame.py:511-537 | a step is fed the scheduled choice with the given states and latent; what it hands on is what the predictive tower, then the reward tower or the pass-through, produce on exactly those inputs; it fails exactly when the tower call fails, with that error |
| ScanDriver.ProcessSingleFrame | tensor2tensor/models/research/next_frame.py:511-538 | an element is read as (image, reward, action); the step is fed the previous image, reward and both state lists, scheduled by the sampling rule; the new carry is the towers' outputs on what it was fed and the counter advances by one; it fails exactly when the tower does, so never with a tower that never raises |
| ScanDriver.Scan | tensor2tensor/models/research/next_frame.py:559-560 | one carry per element; step k has counter start+k and the shared latent, reads element k, is scheduled by the sampling rule, continues from the previous carry (the initial one for k = 0), and its carry is the towers' outputs on what it was fed; with a tower that never raises the scan always completes |
| ScanDriver.ScanFailsWhenTowerFails | tensor2tensor/models/research/next_frame.py:559-560 | a scan over a non-empty sequence with an always-failing tower fails with that error; an empty scan succeeds |
| ScanDriver.ScanElements | tensor2tensor/models/research/next_frame.py:557 | the elements are (images[k+1], actions[k+1], rewards[k+1]) for the T-2 interior frames, none for T below 2 |
| ScanDriver.ScanReadsInterior | tensor2tensor/models/research/next_frame.py:557 | scan step k reads interior frame k+1, with the action in the reward slot and the reward in the action slot |
| ScanDriver.Elements | tensor2tensor/models/research/next_frame.py:548-557 | the first element is (images[0], rewards[0], actions[0]); element k after it is (images[k], actions[k], rewards[k]); one element for one or two frames |
| ScanDriver.Rollout | tensor2tensor/models/research/next_frame.py:545-563 | the seeded first step reads (images[0], rewards[0], actions[0]), is offered images[0], rewards[0] and starts from `[None] * 7` and `[None] * 5`; the scan steps after it read the interior frames with actions and rewards swapped and continue from the previous step's outputs and states; every step's outputs are the towers' outputs on what it was fed; with a tower that never raises the rollout completes |
| ScanDriver.CarriesAreRecurrent | tensor2tensor/models/research/next_frame.py:545-563 | the scan's per-step facts make up the shared recurrence: unset start states, each generated frame and reward produced by the towers on its step, each step continuing from the one before |
| ScanDriver.Run | tensor2tensor/models/research/next_frame.py:540-565 | T-1 frames and rewards for T of 2 or more, 1 for T = 1; counters 0,1,2,...; one shared latent; the first step is fed (images[0], rewards[0], actions[0]); later steps get actions in the reward slot and rewards in the action slot; the generated frames and rewards are the towers' outputs, recurrent from `[None] * 7` and `[None] * 5` with outputs and states threaded step to step; no frames and no stochastic model are errors, and with a stochastic model, a frame and a tower that never raises the run succeeds |
| ScanDriver.RunFailsWhenTowerFails | tensor2tensor/models/research/next_frame.py:545-552 | the first step runs the tower before anything else can fail, so a failing tower fails every non-empty run with its error |
| ScanDriver.RewardSlotCarriesActions | tensor2tensor/models/research/next_frame.py:511-520 | a warm-start step after the first is fed the action as its reward input, and without reward prediction it reports that action as its predicted reward |
| ScanDriver.EvalFeedsBackPredictions | tensor2tensor/models/research/next_frame.py:515-520 | outside training, past warm-start, a step is fed the previous step's generated frame and reward |
| TwoFrameDriver.TakeStep | tensor2tensor/models/research/next_frame.py:777-800 | step t reads (images[t], rewards[t], actions[t]), draws latent t from the statistics of the pair (t, t+1), continues from the previous outputs and states, hands on the towers' outputs on what it was fed, and fails exactly when its tower call fails, so never with a tower that never raises |
| TwoFrameDriver.Steps | tensor2tensor/models/research/next_frame.py:775-803 | from step t on, one record per remaining frame pair; step t+k reads (images, rewards, actions)[t+k], draws latent t+k from the pair (t+k, t+k+1), hands on the towers' outputs, and continues from the previous step's outputs and states; with a tower that never raises every step runs |
| TwoFrameDriver.TakenAreRecurrent | tensor2tensor/models/research/next_frame.py:768-806 | the loop's per-step records, unzipped, make up the shared recurrence from unset states |
| TwoFrameDriver.UnzipKeepsSteps | tensor2tensor/models/research/next_frame.py:789-806 | unzipping keeps step k's inputs, its latent statistics from pair k, its own latent draw and its scheduling |
| TwoFrameDriver.Run | tensor2tensor/models/research/next_frame.py:756-808 | exactly T-1 frames, rewards, latent means and stds; step k's latent comes from the ground-truth pair (images[k], images[k+1]); actions stay in the action slot; each step draws its own latent; the frames and rewards are the towers' outputs, recurrent from `[None] * 7` and `[None] * 5` with outputs and states threaded; no frames is an error, and with a frame and a tower that never raises the run succeeds |
| TwoFrameDriver.Unzip | tensor2tensor/models/research/next_frame.py:789-806 | the per-step records become the stacked frames, rewards, latent means, latent stds and inputs, position by position |
| TwoFrameDriver.RunFailsWhenTowerFails | tensor2tensor/models/research/next_frame.py:775-794 | a failing tower fails every run of two or more frames with its error; a single frame gives empty outputs |
| TwoFrameDriver.LatentsIgnoreScheduledSampling | tensor2tensor/models/research/next_frame.py:784-790 | two runs differing in the sampling draw or the global step collect the same latent statistics |
| TwoFrameDriver.EvalLatentsAreZero | tensor2tensor/models/research/next_frame.py:786-790 | outside training every collected latent mean and std is zero |
| EmilyDriver.Encodings | tensor2tensor/models/research/next_frame.py:988-994 | one encoding per frame, the encoder's output on that frame |
| EmilyDriver.Skips | tensor2tensor/models/research/next_frame.py:988-994 | one set of skips per frame, the encoder's skips for that frame |
| EmilyDriver.Predict | tensor2tensor/models/research/next_frame.py:1000-1026 | one prediction per step i in [1, T), each from the states the step before handed on: the predictor reads the encoding of frame i-1 and the latent; in training the posterior reads the encoding of frame i, giving the mean and log-variance, and the latent is the reparameterised draw i; outside training the posterior is not run, mean and log-variance stay zero and the latent is the raw draw i |
| EmilyDriver.Predictions | tensor2tensor/models/research/next_frame.py:983-1026 | the prediction steps of a run, T-1 of them, start with the predictor stack and (in training) the posterior stack unset |
| EmilyDriver.SkipFrame | tensor2tensor/models/research/next_frame.py:1034-1037 | the decoding skip frame is at most i and at most context_frames-1, and is one of the two; with no context frames index -1 picks the last frame |
| EmilyDriver.Run | tensor2tensor/models/research/next_frame.py:946-1042 | T-1 frames, means and log-variances (none for T = 0); frame k decodes prediction k of the run with the skips of frame min(context_frames-1, k); mean and log-variance k are those of prediction k, zero outside training; the input rewards are returned as reward predictions |
| EmilyDriver.EvalPredictIgnoresPosterior | tensor2tensor/models/research/next_frame.py:1008-1022 | outside training the prediction steps never read the posterior stack |
| EmilyDriver.EvalIgnoresPosterior | tensor2tensor/models/research/next_frame.py:1008-1017 | outside training two models that differ only in posterior and reparameterisation give the same outputs |
| EmilyDriver.EvalPredictReadsPrefix | tensor2tensor/models/research/next_frame.py:1000-1022 | outside training prediction k from step i reads only encodings before i+k |
| EmilyDriver.EvalPredictionIsCausal | tensor2tensor/models/research/next_frame.py:1000-1037 | outside training with a context frame, the prediction of frame k+1 depends only on frames 0..k |
| EmilyDriver.NoContextDecodesWithLastFrame | tensor2tensor/models/research/next_frame.py:1031-1037 | with no context frames every prediction is decoded with the skips of the last frame of the sequence |
| Loss.BetaAsWritten | tensor2tensor/models/research/next_frame.py:683-709 | the source's beta fails exactly for an unknown schedule or a linear anneal ending strictly before the second stage; it is not-a-number only when both stages and the step coincide |
| Loss.Beta | tensor2tensor/models/research/next_frame.py:683-709 | the guarded beta fails exactly for an unknown schedule or an anneal end not after the second stage, with the matching error |
| Loss.RampIsFraction | tensor2tensor/models/research/next_frame.py:700-703 | the ramp is the multiplier times the fraction of the annealing window travelled |
| Loss.ConstantSchedule | tensor2tensor/models/research/next_frame.py:688-691 | the constant schedule gives the multiplier strictly after the second stage and 0 up to it |
| Loss.LinearAnnealEndpoints | tensor2tensor/models/research/next_frame.py:692-709 | the anneal is 0 up to the second stage and the multiplier from the anneal end, and stays between 0 and a nonnegative multiplier |
| Loss.RampIsMonotone | tensor2tensor/models/research/next_frame.py:700-703 | inside the annealing window a later step never gets a smaller ramp, for a nonnegative multiplier |
| Loss.LinearAnnealIsMonotone | tensor2tensor/models/research/next_frame.py:692-709 | with a nonnegative multiplier beta never decreases as the step grows |
| Loss.AsWrittenAgreesWhereGuarded | tensor2tensor/models/research/next_frame.py:695-698 | where the guarded beta answers, the source's beta gives the same finite value; they differ only for equal stages |
| Loss.EqualStagesGiveNaN | tensor2tensor/models/research/next_frame.py:695-703 | equal stages pass the source's guard and give a 0/0 beta at that step; the guarded beta rejects them |
| Loss.KlLoss | tensor2tensor/models/research/next_frame.py:711-714 | the KL term is 0 outside training |
| Loss.KlSumBounds | tensor2tensor/models/research/next_frame.py:711-714 | a sum of nonnegative divergences is nonnegative, and zero exactly when each term is |
| Loss.KlLossNonnegative | tensor2tensor/models/research/next_frame.py:711-714 | with a nonnegative divergence the KL term is nonnegative, in training or not |
| Loss.ExtraLoss | tensor2tensor/models/research/next_frame.py:721 | the product is not-a-number exactly when beta is, and 0 when the KL term is 0 and beta finite |
| Loss.ExtraLossZeroOutsideTraining | tensor2tensor/models/research/next_frame.py:711-721 | outside training the extra loss is 0 for every accepted schedule |
| Loss.AsWrittenLossIsNaN | tensor2tensor/models/research/next_frame.py:695-721 | with the source's guard, equal stages make the extra loss not-a-number at that step even outside training |
| Body.InputIfExists | tensor2tensor/models/research/next_frame.py:630-635 | along the time axis, a present stream is used as given; a missing one is num_frames zero tensors |
| Body.InputViewsAgree | tensor2tensor/models/research/next_frame.py:630-635 | the two views of the same result agree: the leading dimension of the swapped shape is the number of time steps of the stream, present or zero-filled |
| Body.Streams | tensor2tensor/models/research/next_frame.py:649-663 | frames are the input frames then the target frames; for aligned features all three streams have in+out entries |
| Body.ConstructModel | tensor2tensor/models/research/next_frame.py:671-675 | scan: T-1 (at least 1) frames and rewards; two-frame: T-1; Emily: never fails, T-1 frames and the input rewards; no frames fails for the first two; the scan without a stochastic model fails; with a tower that never raises, a frame and (for the scan) a stochastic model, the scan and two-frame drivers succeed; a result is the chosen driver's output (frames, rewards, latent means and standard deviations), and for Emily frame k decodes prediction k with the skips of frame min(context_frames-1, k) |
| Body.DriverOutputIsRecurrent | tensor2tensor/models/research/next_frame.py:671-675 | the frames and rewards of a successful scan or two-frame run come out of the shared step recurrence from unset states |
| Body.Window | tensor2tensor/models/research/next_frame.py:725-726 | with in of at least 1 the window drops the first in-1 predictions and keeps the rest in order; with in = 0 only the last prediction remains |
| Body.ForwardWith | tensor2tensor/models/research/next_frame.py:641-749 | for a given beta: a rejected beta fails the pass; a result's extra loss is not-a-number exactly when beta is, and 0 outside training for a finite beta; rewards come back as a dictionary exactly when target rewards are given; aligned streams, an accepted beta and a driver that returns make the pass succeed; a result is the windowed frame and reward predictions of the driver's run on the joined streams, with extra loss beta times the KL term over that run's latent statistics |
| Body.Forward | tensor2tensor/models/research/next_frame.py:641-749 | the pass with the source's beta: a rejected schedule fails it; the extra loss is not-a-number exactly when beta is, which needs a linear anneal whose two stages equal the step; otherwise it is 0 outside training; rewards come back as a dictionary exactly when target rewards are given; aligned streams, an accepted schedule and a driver that returns make the pass succeed; a result is the windowed predictions of the driver's run with extra loss that beta times its KL term |
| Body.GuardedBeta | tensor2tensor/models/research/next_frame.py:683-709 | the intended beta as a scalar: it answers exactly when the guarded schedule does, with its finite value, and fails with its error |
| Body.GuardedForward | tensor2tensor/models/research/next_frame.py:641-749 | the pass with the intended guard: a rejected schedule fails it; a result carries a finite extra loss, 0 outside training; aligned streams, an accepted schedule and a driver that returns make the pass succeed; a result is the windowed predictions of the driver's run with extra loss the intended beta times its KL term |
| Body.GuardedForwardAgrees | tensor2tensor/models/research/next_frame.py:695-721 | wherever the intended guard accepts, the guarded pass equals the source's pass; they differ only when the source accepts equal stages |
| Body.WindowedOutputLength | tensor2tensor/models/research/next_frame.py:725-726 | with aligned streams and at least one input frame a successful pass has exactly out predictions (1 for the scan at in+out = 1), and Emily out+1 reward predictions; the pass does succeed when the schedule is accepted and the driver returns |
| Body.DnaMisconfigurationFailsScan | tensor2tensor/models/research/next_frame.py:454-457 | a DNA model with num_masks other than 1 fails the scan driver's forward pass with the DNA error on any non-empty sequence |
| Body.FittingTowerRuns | tensor2tensor/models/research/next_frame.py:446-477 | a tower that passes the DNA check (in particular DNA with one mask) and whose layers fit never fails the two-frame forward pass on aligned streams with a frame and an accepted schedule, nor the scan's with a stochastic model |
| Body.DnaMisconfigurationFailsTwoFrames | tensor2tensor/models/research/next_frame.py:454-457 | a DNA model with num_masks other than 1 fails the two-frame driver's forward pass with the DNA error on two frames or more |

## Left out

- Neural layers: convolutions, recurrent cells, normalisation, dense layers,
  the VGG encoder and decoder, and the CDNA/DNA transformations. They are
  library calls, modelled only as uninterpreted function parameters.
- Randomness: the Gaussian draws, the reparameterisation and the scheduled
  sampling draw are function parameters indexed by draw. The scheduled
  sampling mix takes the step and the item (0 the image, 1 the reward). The
  latent sample takes the step in the two-frame driver, and index 0 for the
  scan driver's single draw. `EmilyNets.noise` takes the step. Two calls with
  the same index give the same value in the model, whereas every call in the
  source draws fresh noise; distinct draws are told apart only by index.
- Hparams: the size schedules passed to `tinyify` are not kept. They only
  set layer widths, which the uninterpreted layers do not see.
- ScheduledSampling.SchedulePolicy: the polynomial decay and the `exp`/`round`
  count formula are floating-point numerics. Only the sentinel step and the
  choice of policy are modelled.
- Loss.BetaAsWritten: values are exact reals. float32 rounding of the step
  and the ramp is not modelled; the 0/0 case is kept as `NaN`.
- Loss.KlLoss: `kl_divergence` is a library call and is a parameter here.
- Compositing.Composite: images are flat per-position values. The broadcast
  of one mask channel over colour channels and the batch axis is not
  modelled.
- Towers.PredictiveTower: layer outputs whose masks or candidates do not
  match the image size are reported as `ShapeMismatch`. TensorFlow would
  raise its own shape error there.
- Body.Forward: streams whose lengths do not line up are rejected as
  `ShapeMismatch`. In the source the outcome depends on the driver: the scan
  raises a shape error, the two-frame loop's `zip` truncates, and Emily
  never reads actions.
- Body.Forward: the summaries, the 64x3 side-by-side video reshape, the
  `tf.squeeze` of the rewards and the final axis swaps are tensor plumbing
  and are not modelled. The axis swap itself is modelled at shape level in
  `Shapes`.
- ScanDriver.Run: for one or two frames the model assumes `tf.scan` over
  empty elements yields no outputs, so the driver returns only the seeded
  first frame.
- `NextFrameBasic`, the registry, `infer` and the SAVP test are not part of
  this model.

## Findings

| source | as written | input that shows it | evidently intended | confidence | as-written member | corrected member |
|---|---|---|---|---|---|---|
| tensor2tensor/models/research/next_frame.py:695-703 | the `linear_anneal` guard `anneal_end < second_stage` accepts `anneal_end == num_iterations_2nd_stage`; the ramp then divides by `anneal_end - second_stage = 0` | `latent_loss_multiplier_schedule = "linear_anneal"`, `num_iterations_2nd_stage = anneal_end = 100000`, no global step (the sentinel is 100000): beta is 0/0, not a number, and so is the extra loss, even outside training | reject any anneal end not strictly after the second stage, as the error message "Expected hparams.num_iterations_2nd_stage < hparams.anneal_end" states | not executed; high | Loss.BetaAsWritten | Loss.Beta |

`Body.Forward` follows the source and uses `Loss.BetaAsWritten`.
`Body.GuardedForward` is the same pass with `Loss.Beta`, and
`Body.GuardedForwardAgrees` shows that the two agree wherever `Loss.Beta`
answers.

=== FILE: body.dfy ===
/** `NextFrameStochastic.body` over time-major sequences: the missing
    action and reward streams are zero-filled, input and target streams are
    joined, one of the three drivers runs, the extra loss is `beta` times
    the KL term, and the predictions of the input frames are dropped. */
module Body {
  import opened Wrappers
  import opened Hparams
  import opened Towers
  import opened Step
  import opened Loss
  import opened Compositing
  import PySeq
  import Shapes
  import ScanDriver
  import TwoFrameDriver
  import EmilyDriver

  /** The feature dictionary, one entry per time step; the optional streams
      are the keys that may be absent. */
  datatype Features<T> = Features(inputs: seq<T>, targets: seq<T>,
                                  inputAction: Option<seq<T>>, targetAction: Option<seq<T>>,
                                  inputReward: Option<seq<T>>, targetReward: Option<seq<T>>)

  /** Which `construct_model` the registered model uses, with its layers. */
  datatype Variant<!T, !C, !K> =
    | Stochastic(nets: Nets<T, C>)
    | TwoFrames(nets: Nets<T, C>)
    | Emily(enets: EmilyDriver.EmilyNets<T, C, K>)

  /** `get_input_if_exists` along the time axis: the stream when the key is
      present, otherwise `num_frames` zero tensors. This is what the function
      returns, one tensor per time step; `Shapes.InputShapeIfExists` is the
      shape of the same result, time-major after the axis swap, and
      `InputViewsAgree` shows that its leading dimension is the length here. */
  function InputIfExists<T>(x: Option<seq<T>>, numFrames: nat, zero: T): (r: seq<T>)
    ensures x.Some? ==> r == x.value
    ensures x.None? ==> |r| == numFrames && forall k :: 0 <= k < numFrames ==> r[k] == zero
  {
    match x
    case Some(s) => s
    case None => seq(numFrames, _ => zero)
  }

  /** The two views of `get_input_if_exists` agree on the time axis: the
      leading dimension of the swapped shape is the number of time steps of
      the stream, present or zero-filled. */
  lemma InputViewsAgree<T>(h: Hparams, features: map<string, Shapes.Shape>, key: string, batchSize: int,
                           x: Option<seq<T>>, numFrames: nat, zero: T)
    requires x.Some? <==> key in features
    requires key in features ==> |features[key]| >= 2 && features[key][1] == |x.value|
    ensures Shapes.InputShapeIfExists(features, key, batchSize, numFrames, h).Success?
    ensures Shapes.InputShapeIfExists(features, key, batchSize, numFrames, h).value[0]
            == |InputIfExists(x, numFrames, zero)|
  {
  }

  /** The joined frame, action and reward streams `construct_model` is
      given: input then target frames, missing streams zero-filled. */
  function Streams<T>(h: Hparams, f: Features<T>, zero: T): (r: (seq<T>, seq<T>, seq<T>))
    ensures r.0 == f.inputs + f.targets
    ensures |r.1| == |InputIfExists(f.inputAction, h.videoNumInputFrames, zero)|
                   + |InputIfExists(f.targetAction, h.videoNumTargetFrames, zero)|
    ensures |r.2| == |InputIfExists(f.inputReward, h.videoNumInputFrames, zero)|
                   + |InputIfExists(f.targetReward, h.videoNumTargetFrames, zero)|
    ensures Aligned(h, f) ==>
      |r.0| == h.videoNumInputFrames + h.videoNumTargetFrames && |r.1| == |r.0| && |r.2| == |r.0|
  {
    (f.inputs + f.targets,
     InputIfExists(f.inputAction, h.videoNumInputFrames, zero) + InputIfExists(f.targetAction, h.videoNumTargetFrames, zero),
     InputIfExists(f.inputReward, h.videoNumInputFrames, zero) + InputIfExists(f.targetReward, h.videoNumTargetFrames, zero))
  }

  /** The driver of `v` returns on `n` frames: its tower never raises, and
      the scan driver also needs a stochastic model and the two sampling
      drivers a frame. The Emily driver always returns. */
  ghost predicate DriverRuns<T(!new), C(!new), K>(h: Hparams, v: Variant<T, C, K>, n: nat) {
    match v
    case Stochastic(nets) => NeverFails(nets.tower) && h.stochasticModel && n >= 1
    case TwoFrames(nets) => NeverFails(nets.tower) && n >= 1
    case Emily(_) => true
  }

  /** The driver of the variant on the joined streams. */
  function ConstructModel<T(!new), C(!new), K>(h: Hparams, v: Variant<T, C, K>, globalStep: Option<int>,
                                   images: seq<T>, actions: seq<T>, rewards: seq<T>): (r: Result<DriverOut<T>, Error>)
    requires |actions| == |images| && |rewards| == |images|
    ensures |images| == 0 && !v.Emily? ==> r == Failure(EmptySequence)
    ensures v.Stochastic? && !h.stochasticModel ==> r.Failure?
    ensures r.Success? && v.Stochastic? ==>
      var n := if |images| >= 2 then |images| - 1 else 1;
      |r.value.genImages| == n && |r.value.genRewards| == n
    ensures r.Success? && v.TwoFrames? ==>
      |r.value.genImages| == |images| - 1 && |r.value.genRewards| == |images| - 1
    ensures v.Emily? ==> r.Success? && r.value.genRewards == rewards
    ensures v.Emily? ==> |r.value.genImages| == if |images| >= 1 then |images| - 1 else 0
    ensures DriverRuns(h, v, |images|) ==> r.Success?
    ensures r.Success? && v.Stochastic? ==>
      && ScanDriver.Run(h, v.nets, globalStep, images, actions, rewards).Success?
      && r.value == ScanDriver.Run(h, v.nets, globalStep, images, actions, rewards).value.out
    ensures r.Success? && v.TwoFrames? ==>
      && TwoFrameDriver.Run(h, v.nets, globalStep, images, actions, rewards).Success?
      && var run := TwoFrameDriver.Run(h, v.nets, globalStep, images, actions, rewards).value;
         r.value == DriverOut(run.genImages, run.genRewards, run.latentMeans, run.latentStds)
    ensures v.Emily? ==>
      var run := EmilyDriver.Run(h, v.enets, images, rewards);
      r == Success(DriverOut(run.genImages, run.genRewards, run.mus, run.logvars))
    ensures v.Emily? ==> forall k :: 0 <= k < |r.value.genImages| ==>
      r.value.genImages[k] == v.enets.decoder(
        EmilyDriver.Predictions(h, v.enets, images)[k].encoding,
        v.enets.encoder(images[EmilyDriver.SkipFrame(h.videoNumInputFrames, k, |images|)]).1)
  {
    match v
    case Stochastic(nets) =>
      var run := ScanDriver.Run(h, nets, globalStep, images, actions, rewards);
      if run.Failure? then Failure(run.error) else Success(run.value.out)
    case TwoFrames(nets) =>
      var run := TwoFrameDriver.Run(h, nets, globalStep, images, actions, rewards);
      if run.Failure? then Failure(run.error)
      else Success(DriverOut(run.value.genImages, run.value.genRewards, run.value.latentMeans, run.value.latentStds))
    case Emily(enets) =>
      var run := EmilyDriver.Run(h, enets, images, rewards);
      Success(DriverOut(run.genImages, run.genRewards, run.mus, run.logvars))
  }

  /** The frames and rewards of the scan and two-frame drivers come out of
      the shared recurrence of steps from unset states. */
  lemma DriverOutputIsRecurrent<T(!new), C(!new), K>(h: Hparams, v: Variant<T, C, K>, globalStep: Option<int>,
                                                     images: seq<T>, actions: seq<T>, rewards: seq<T>)
    requires |actions| == |images| && |rewards| == |images|
    ensures var r := ConstructModel(h, v, globalStep, images, actions, rewards);
      r.Success? && !v.Emily? ==>
        exists steps :: Recurrent(ModelOf(h, v.nets, globalStep), steps, r.value.genImages, r.value.genRewards)
  {
    var r := ConstructModel(h, v, globalStep, images, actions, rewards);
    if r.Success? {
      match v
      case Stochastic(nets) =>
        var run := ScanDriver.Run(h, nets, globalStep, images, actions, rewards);
        assert Recurrent(ModelOf(h, nets, globalStep), run.value.steps, r.value.genImages, r.value.genRewards);
      case TwoFrames(nets) =>
        var run := TwoFrameDriver.Run(h, nets, globalStep, images, actions, rewards);
        assert Recurrent(ModelOf(h, nets, globalStep), run.value.steps, r.value.genImages, r.value.genRewards);
      case Emily(_) =>
    }
  }

  /** `x[video_num_input_frames - 1:]`: the predictions of the target frames.
      With no input frames the slice start is `-1` and only the last
      prediction is kept. */
  function Window<T>(h: Hparams, xs: seq<T>): (r: seq<T>)
    ensures h.videoNumInputFrames >= 1 && h.videoNumInputFrames - 1 <= |xs| ==>
      |r| == |xs| - (h.videoNumInputFrames - 1)
      && forall k :: 0 <= k < |r| ==> r[k] == xs[h.videoNumInputFrames - 1 + k]
    ensures h.videoNumInputFrames == 0 && |xs| >= 1 ==> r == [xs[|xs| - 1]]
  {
    PySeq.From(xs, h.videoNumInputFrames - 1)
  }

  /** What `body` returns: the windowed frame and reward predictions, whether
      they come back as a dictionary with the rewards (only when the
      features carry target rewards), and the extra loss. */
  datatype BodyOut<T> = BodyOut(predictions: seq<T>, rewardPredictions: seq<T>,
                                withRewards: bool, extraLoss: Scalar)

  /** `out` is what `body` makes of one run of the driver on the joined
      streams: the windowed frame and reward predictions, and the extra loss
      `beta` times the KL term over that run's latent statistics. */
  ghost predicate PassOf<T(!new), C(!new), K>(h: Hparams, v: Variant<T, C, K>, globalStep: Option<int>,
                                              kl: (T, T) -> real, zero: T, f: Features<T>,
                                              beta: Scalar, out: BodyOut<T>)
  {
    var (images, actions, rewards) := Streams(h, f, zero);
    && |actions| == |images| && |rewards| == |images|
    && var run := ConstructModel(h, v, globalStep, images, actions, rewards);
       && run.Success?
       && out.predictions == Window(h, run.value.genImages)
       && out.rewardPredictions == Window(h, run.value.genRewards)
       && out.extraLoss == ExtraLoss(beta, KlLoss(h.training, kl, run.value.latentMeans, run.value.latentStds))
  }

  /** The forward pass of `body` for a given outcome of the KL weight:
      the driver runs first, so its errors come before the schedule's; then
      the extra loss is `beta` times the KL term and the predictions of the
      input frames are dropped. Streams that do not line up in time are
      rejected. */
  function ForwardWith<T(!new), C(!new), K>(h: Hparams, v: Variant<T, C, K>, globalStep: Option<int>,
                                kl: (T, T) -> real, zero: T, f: Features<T>,
                                beta: Result<Scalar, Error>): (r: Result<BodyOut<T>, Error>)
    ensures r.Success? ==> (r.value.withRewards <==> f.targetReward.Some?)
    ensures beta.Failure? ==> r.Failure?
    ensures r.Success? ==> beta.Success? && (r.value.extraLoss.NaN? <==> beta.value.NaN?)
    ensures r.Success? && !h.training && beta.value.Finite? ==> r.value.extraLoss == Finite(0.0)
    ensures Aligned(h, f) && DriverRuns(h, v, h.videoNumInputFrames + h.videoNumTargetFrames) && beta.Success? ==>
      r.Success?
    ensures r.Success? ==> beta.Success? && PassOf(h, v, globalStep, kl, zero, f, beta.value, r.value)
  {
    var (images, actions, rewards) := Streams(h, f, zero);
    if |actions| != |images| || |rewards| != |images| then Failure(ShapeMismatch)
    else
      var run := ConstructModel(h, v, globalStep, images, actions, rewards);
      if run.Failure? then Failure(run.error)
      else if beta.Failure? then Failure(beta.error)
      else
        var extra := ExtraLoss(beta.value, KlLoss(h.training, kl, run.value.latentMeans, run.value.latentStds));
        Success(BodyOut(Window(h, run.value.genImages), Window(h, run.value.genRewards),
                        f.targetReward.Some?, extra))
  }

  /** The forward pass of `body` as written: the KL weight follows the
      source's guard, so a linear anneal with equal stages is accepted, and
      at the step where they meet the extra loss is not a number. */
  function Forward<T(!new), C(!new), K>(h: Hparams, v: Variant<T, C, K>, globalStep: Option<int>,
                            kl: (T, T) -> real, zero: T, f: Features<T>): (r: Result<BodyOut<T>, Error>)
    ensures r.Success? ==> (r.value.withRewards <==> f.targetReward.Some?)
    ensures BetaAsWritten(h, GlobalStep(globalStep)).Failure? ==> r.Failure?
    ensures r.Success? ==> BetaAsWritten(h, GlobalStep(globalStep)).Success?
    ensures r.Success? ==> (r.value.extraLoss.NaN? <==> BetaAsWritten(h, GlobalStep(globalStep)).value.NaN?)
    ensures r.Success? && r.value.extraLoss.NaN? ==>
      && h.latentLossMultiplierSchedule == "linear_anneal"
      && h.annealEnd == h.numIterations2ndStage == GlobalStep(globalStep)
    ensures r.Success? && !h.training && BetaAsWritten(h, GlobalStep(globalStep)).value.Finite? ==>
      r.value.extraLoss == Finite(0.0)
    ensures (Aligned(h, f) && DriverRuns(h, v, h.videoNumInputFrames + h.videoNumTargetFrames)
             && BetaAsWritten(h, GlobalStep(globalStep)).Success?) ==> r.Success?
    ensures r.Success? ==>
      PassOf(h, v, globalStep, kl, zero, f, BetaAsWritten(h, GlobalStep(globalStep)).value, r.value)
  {
    ForwardWith(h, v, globalStep, kl, zero, f, BetaAsWritten(h, GlobalStep(globalStep)))
  }

  /** The KL weight of the strict guard as a scalar. */
  function GuardedBeta(h: Hparams, step: int): (r: Result<Scalar, Error>)
    ensures r.Success? <==> Beta(h, step).Success?
    ensures r.Success? ==> r.value == Finite(Beta(h, step).value)
    ensures r.Failure? ==> r.error == Beta(h, step).error
  {
    match Beta(h, step)
    case Success(b) => Success(Finite(b))
    case Failure(e) => Failure(e)
  }

  /** The forward pass with the strict guard: equal stages are rejected
      once the driver has run, and the extra loss is always a number. */
  function GuardedForward<T(!new), C(!new), K>(h: Hparams, v: Variant<T, C, K>, globalStep: Option<int>,
                                   kl: (T, T) -> real, zero: T, f: Features<T>): (r: Result<BodyOut<T>, Error>)
    ensures r.Success? ==> (r.value.withRewards <==> f.targetReward.Some?)
    ensures Beta(h, GlobalStep(globalStep)).Failure? ==> r.Failure?
    ensures r.Success? ==> Beta(h, GlobalStep(globalStep)).Success? && r.value.extraLoss.Finite?
    ensures r.Success? && !h.training ==> r.value.extraLoss == Finite(0.0)
    ensures (Aligned(h, f) && DriverRuns(h, v, h.videoNumInputFrames + h.videoNumTargetFrames)
             && Beta(h, GlobalStep(globalStep)).Success?) ==> r.Success?
    ensures r.Success? ==>
      PassOf(h, v, globalStep, kl, zero, f, Finite(Beta(h, GlobalStep(globalStep)).value), r.value)
  {
    ForwardWith(h, v, globalStep, kl, zero, f, GuardedBeta(h, GlobalStep(globalStep)))
  }

  /** The strict guard changes nothing where it accepts the schedule, and
      where it rejects a schedule the source runs, the stages are equal. */
  lemma GuardedForwardAgrees<T(!new), C(!new), K>(h: Hparams, v: Variant<T, C, K>, globalStep: Option<int>,
                                      kl: (T, T) -> real, zero: T, f: Features<T>)
    ensures Beta(h, GlobalStep(globalStep)).Success? ==>
      GuardedForward(h, v, globalStep, kl, zero, f) == Forward(h, v, globalStep, kl, zero, f)
    ensures GuardedForward(h, v, globalStep, kl, zero, f).Failure? && Forward(h, v, globalStep, kl, zero, f).Success? ==>
      h.latentLossMultiplierSchedule == "linear_anneal" && h.annealEnd == h.numIterations2ndStage
  {
    AsWrittenAgreesWhereGuarded(h, GlobalStep(globalStep));
  }

  /** The streams line up with the configured frame counts: `in` input and
      `out` target frames, and every action and reward stream present has
      the length of its frames. */
  predicate Aligned<T>(h: Hparams, f: Features<T>) {
    && |f.inputs| == h.videoNumInputFrames && |f.targets| == h.videoNumTargetFrames
    && (f.inputAction.Some? ==> |f.inputAction.value| == h.videoNumInputFrames)
    && (f.inputReward.Some? ==> |f.inputReward.value| == h.videoNumInputFrames)
    && (f.targetAction.Some? ==> |f.targetAction.value| == h.videoNumTargetFrames)
    && (f.targetReward.Some? ==> |f.targetReward.value| == h.videoNumTargetFrames)
  }

  /** Output windowing: with at least one input frame, dropping the first
      `in - 1` predictions leaves exactly one per target frame; the Emily
      variant hands back the `in + out` input rewards, so one more reward
      survives. The scan driver always emits at least one frame, so a single
      input frame with no target frames leaves one prediction. */
  lemma {:induction false} WindowedOutputLength<T(!new), C(!new), K>(h: Hparams, v: Variant<T, C, K>, globalStep: Option<int>,
                                                         kl: (T, T) -> real, zero: T, f: Features<T>)
    requires Aligned(h, f) && h.videoNumInputFrames >= 1
    ensures Forward(h, v, globalStep, kl, zero, f).Success? ==>
      var out := Forward(h, v, globalStep, kl, zero, f).value;
      var n := if v.Stochastic? && h.videoNumInputFrames + h.videoNumTargetFrames == 1 then 1
               else h.videoNumTargetFrames;
      && |out.predictions| == n
      && |out.rewardPredictions| == if v.Emily? then h.videoNumTargetFrames + 1 else n
    ensures (DriverRuns(h, v, h.videoNumInputFrames + h.videoNumTargetFrames)
             && BetaAsWritten(h, GlobalStep(globalStep)).Success?) ==> Forward(h, v, globalStep, kl, zero, f).Success?
  {
    if Forward(h, v, globalStep, kl, zero, f).Success? {
      var (images, actions, rewards) := Streams(h, f, zero);
      var run := ConstructModel(h, v, globalStep, images, actions, rewards).value;
      assert Forward(h, v, globalStep, kl, zero, f).value.predictions == Window(h, run.genImages);
    }
  }

  /** The predictive tower as the drivers call it. */
  function PredictiveMainTower<C(!new)>(h: Hparams, net: TowerNet<C>): (t: MainTower<Image, C>)
    ensures forall a, b, c, s, l :: t(a, b, c, s, l) == PredictiveTower(h, net, a, b, c, s, l)
  {
    (a, b, c, s, l) => PredictiveTower(h, net, a, b, c, s, l)
  }

  /** A DNA model configured with other than one mask fails the scan
      driver's forward pass with the DNA error on any sequence: the first
      step runs the tower. */
  lemma DnaMisconfigurationFailsScan<C(!new), K>(h: Hparams, net: TowerNet<C>, nets: Nets<Image, C>,
                                                 globalStep: Option<int>, kl: (Image, Image) -> real,
                                                 zero: Image, f: Features<Image>)
    requires h.modelOptions == "DNA" && h.numMasks != 1
    requires Aligned(h, f) && h.videoNumInputFrames + h.videoNumTargetFrames >= 1
    ensures var v: Variant<Image, C, K> := Stochastic(nets.(tower := PredictiveMainTower(h, net)));
      Forward(h, v, globalStep, kl, zero, f) == Failure(DnaNeedsOneMask)
  {
    var nets' := nets.(tower := PredictiveMainTower(h, net));
    assert AlwaysFails(nets'.tower, DnaNeedsOneMask);
    var (images, actions, rewards) := Streams(h, f, zero);
    ScanDriver.RunFailsWhenTowerFails(h, nets', globalStep, images, actions, rewards, DnaNeedsOneMask);
  }

  /** The same for the two-frame driver, on any sequence of two frames or
      more; a single frame never reaches the tower. */
  lemma DnaMisconfigurationFailsTwoFrames<C(!new), K>(h: Hparams, net: TowerNet<C>, nets: Nets<Image, C>,
                                                      globalStep: Option<int>, kl: (Image, Image) -> real,
                                                      zero: Image, f: Features<Image>)
    requires h.modelOptions == "DNA" && h.numMasks != 1
    requires Aligned(h, f) && h.videoNumInputFrames + h.videoNumTargetFrames >= 2
    ensures var v: Variant<Image, C, K> := TwoFrames(nets.(tower := PredictiveMainTower(h, net)));
      Forward(h, v, globalStep, kl, zero, f) == Failure(DnaNeedsOneMask)
  {
    var nets' := nets.(tower := PredictiveMainTower(h, net));
    assert AlwaysFails(nets'.tower, DnaNeedsOneMask);
    var (images, actions, rewards) := Streams(h, f, zero);
    TwoFrameDriver.RunFailsWhenTowerFails(h, nets', globalStep, images, actions, rewards, DnaNeedsOneMask);
  }

  /** Conversely to the two lemmas above: when the mode passes the DNA
      check and the layers always fit the input image, neither driver's
      forward pass raises on aligned streams with a frame, given an accepted
      schedule (and, for the scan driver, a stochastic model). */
  lemma FittingTowerRuns<C(!new), K>(h: Hparams, net: TowerNet<C>, nets: Nets<Image, C>,
                                     globalStep: Option<int>, kl: (Image, Image) -> real,
                                     zero: Image, f: Features<Image>)
    requires !(h.modelOptions == "DNA" && h.numMasks != 1)
    requires forall a, b, c, s, l :: LayersFit(h, net(a, b, c, s, l), a)
    requires Aligned(h, f) && h.videoNumInputFrames + h.videoNumTargetFrames >= 1
    requires BetaAsWritten(h, GlobalStep(globalStep)).Success?
    ensures var v: Variant<Image, C, K> := TwoFrames(nets.(tower := PredictiveMainTower(h, net)));
      Forward(h, v, globalStep, kl, zero, f).Success?
    ensures var v: Variant<Image, C, K> := Stochastic(nets.(tower := PredictiveMainTower(h, net)));
      h.stochasticModel ==> Forward(h, v, globalStep, kl, zero, f).Success?
  {
    var tower := PredictiveMainTower(h, net);
    FittingTowerNeverFails(h, net);
    assert NeverFails(tower);
  }
}

=== FILE: compositing.dfy ===
/** The candidate list and the mask compositing at the end of the
    predictive tower. Images are flattened to one value per position and a
    mask holds one weight per position (the broadcast of a single mask
    channel over the colour channels is left out). */
module Compositing {
  import opened Wrappers
  import opened Hparams
  import PySeq

  type Image = seq<real>

  predicate SameSize(images: seq<Image>, n: nat) {
    forall k :: 0 <= k < |images| ==> |images[k]| == n
  }

  /** The candidate images the masks weight after channel 0: the direct
      image guess followed by the CDNA candidates in CDNA mode, the DNA
      candidate alone in DNA mode (which supports exactly one mask), and the
      direct guess alone for any other option. */
  function Candidates(h: Hparams, direct: Image, cdna: seq<Image>, dna: Image): (r: Result<seq<Image>, Error>)
    ensures h.modelOptions == "DNA" ==> (r.Failure? <==> h.numMasks != 1)
    ensures r.Failure? ==> r.error == DnaNeedsOneMask
    ensures h.modelOptions == "DNA" && r.Success? ==> r.value == [dna]
    ensures h.modelOptions == "CDNA" ==> r == Success([direct] + cdna)
    ensures h.modelOptions != "CDNA" && h.modelOptions != "DNA" ==> r == Success([direct])
  {
    if h.modelOptions == "CDNA" then Success([direct] + cdna)
    else if h.modelOptions == "DNA" then
      if h.numMasks != 1 then Failure(DnaNeedsOneMask) else Success([dna])
    else Success([direct])
  }

  /** Position-wise `w * x`. */
  function Scale(w: Image, x: Image): (r: Image)
    requires |w| == |x|
    ensures |r| == |x|
    ensures forall p :: 0 <= p < |r| ==> r[p] == w[p] * x[p]
  {
    seq(|x|, p requires 0 <= p < |x| => w[p] * x[p])
  }

  /** Position-wise `a + b`. */
  function Add(a: Image, b: Image): (r: Image)
    requires |a| == |b|
    ensures |r| == |a|
    ensures forall p :: 0 <= p < |r| ==> r[p] == a[p] + b[p]
  {
    seq(|a|, p requires 0 <= p < |a| => a[p] + b[p])
  }

  /** How many (candidate, mask) pairs `zip(transformed, mask_list[1:])` yields. */
  function Paired(masks: seq<Image>, transformed: seq<Image>): nat
    requires |masks| >= 1
  {
    PySeq.Min(|transformed|, |masks| - 1)
  }

  /** Reference sum at position `p`: `sum_{j <= k < n} transformed[k][p] * masks[k+1][p]`. */
  function Weighted(masks: seq<Image>, transformed: seq<Image>, p: nat, j: nat, n: nat): real
    requires n <= |transformed| && n + 1 <= |masks|
    requires forall c :: 0 <= c < |masks| ==> p < |masks[c]|
    requires forall k :: 0 <= k < |transformed| ==> p < |transformed[k]|
    decreases n - j
  {
    if j >= n then 0.0
    else transformed[j][p] * masks[j + 1][p] + Weighted(masks, transformed, p, j + 1, n)
  }

  /** Total mask weight at position `p` over channels `j <= c < n`. */
  function MaskWeight(masks: seq<Image>, p: nat, j: nat, n: nat): real
    requires n <= |masks|
    requires forall c :: 0 <= c < |masks| ==> p < |masks[c]|
    decreases n - j
  {
    if j >= n then 0.0 else masks[j][p] + MaskWeight(masks, p, j + 1, n)
  }

  /** The loop `for layer, mask in zip(transformed, mask_list[1:]): output += layer * mask`,
      from pair `k` on. Each position of the result is the accumulator plus
      the reference sum of the remaining pairs. */
  function Blend(acc: Image, masks: seq<Image>, transformed: seq<Image>, k: nat): (r: Image)
    requires |masks| >= 1 && k <= Paired(masks, transformed)
    requires SameSize(masks, |acc|) && SameSize(transformed, |acc|)
    ensures |r| == |acc|
    ensures forall p :: 0 <= p < |acc| ==>
      r[p] == acc[p] + Weighted(masks, transformed, p, k, Paired(masks, transformed))
    decreases Paired(masks, transformed) - k
  {
    if k == Paired(masks, transformed) then acc
    else Blend(Add(acc, Scale(masks[k + 1], transformed[k])), masks, transformed, k + 1)
  }

  /** The composited prediction: mask channel 0 weights the untransformed
      input image, channel `k+1` weights candidate `k`, and candidates or
      channels without a partner are dropped. */
  function Composite(masks: seq<Image>, input: Image, transformed: seq<Image>): (out: Image)
    requires |masks| >= 1
    requires SameSize(masks, |input|) && SameSize(transformed, |input|)
    ensures |out| == |input|
    ensures forall p :: 0 <= p < |input| ==>
      out[p] == masks[0][p] * input[p] + Weighted(masks, transformed, p, 0, Paired(masks, transformed))
  {
    Blend(Scale(masks[0], input), masks, transformed, 0)
  }

  lemma ScaleBounds(w: real, x: real, lo: real, hi: real)
    requires 0.0 <= w && lo <= x <= hi
    ensures lo * w <= x * w <= hi * w
  {
    assert x * w - lo * w == (x - lo) * w;
    assert hi * w - x * w == (hi - x) * w;
  }

  /** Adding one weighted term to a sum bounded by its weight keeps the sum
      bounded by the new total weight. */
  lemma AddWeightedTerm(w: real, x: real, rest: real, restWeight: real, lo: real, hi: real)
    requires 0.0 <= w && lo <= x <= hi
    requires lo * restWeight <= rest <= hi * restWeight
    ensures lo * (w + restWeight) <= x * w + rest <= hi * (w + restWeight)
  {
    ScaleBounds(w, x, lo, hi);
    assert lo * (w + restWeight) == lo * w + lo * restWeight;
    assert hi * (w + restWeight) == hi * w + hi * restWeight;
  }

  /** One convex step: a weight on `x` plus a remainder bounded by its own
      weight stays within `[lo, hi]` when the two weights sum to 1. */
  lemma ConvexStep(v: real, w0: real, x: real, rest: real, restWeight: real, lo: real, hi: real)
    requires 0.0 <= w0 && lo <= x <= hi
    requires lo * restWeight <= rest <= hi * restWeight
    requires w0 + restWeight == 1.0
    requires v == w0 * x + rest
    ensures lo <= v <= hi
  {
    assert w0 * (x - lo) >= 0.0;
    assert w0 * (hi - x) >= 0.0;
    assert w0 * x + rest - lo == w0 * (x - lo) + (rest - lo * restWeight) + lo * (w0 + restWeight - 1.0);
    assert hi - (w0 * x + rest) == w0 * (hi - x) + (hi * restWeight - rest) - hi * (w0 + restWeight - 1.0);
  }

  /** The reference sum lies between `lo` and `hi` times the total weight of
      the channels it uses, when those weights are nonnegative and the
      candidates lie in `[lo, hi]`. */
  lemma {:induction false} WeightedBounds(masks: seq<Image>, transformed: seq<Image>, p: nat,
                                          j: nat, n: nat, lo: real, hi: real)
    requires n <= |transformed| && n + 1 <= |masks|
    requires forall c :: 0 <= c < |masks| ==> p < |masks[c]| && 0.0 <= masks[c][p]
    requires forall k :: 0 <= k < |transformed| ==> p < |transformed[k]|
    requires forall k :: j <= k < n ==> lo <= transformed[k][p] <= hi
    ensures lo * MaskWeight(masks, p, j + 1, n + 1) <= Weighted(masks, transformed, p, j, n)
    ensures Weighted(masks, transformed, p, j, n) <= hi * MaskWeight(masks, p, j + 1, n + 1)
    decreases n - j
  {
    if j < n {
      WeightedBounds(masks, transformed, p, j + 1, n, lo, hi);
      var w, x := masks[j + 1][p], transformed[j][p];
      var rest, restWeight := Weighted(masks, transformed, p, j + 1, n), MaskWeight(masks, p, j + 2, n + 1);
      assert Weighted(masks, transformed, p, j, n) == x * w + rest;
      assert MaskWeight(masks, p, j + 1, n + 1) == w + restWeight;
      AddWeightedTerm(w, x, rest, restWeight, lo, hi);
    }
  }

  /** Convexity: when the mask weights at a position are nonnegative and sum
      to 1, and there is a candidate for every channel after the first, the
      output there lies within any bounds that hold for the input image and
      for the candidates. */
  lemma {:induction false} CompositeIsConvex(masks: seq<Image>, input: Image, transformed: seq<Image>,
                                           p: nat, lo: real, hi: real)
    requires |masks| >= 1
    requires SameSize(masks, |input|) && SameSize(transformed, |input|)
    requires p < |input|
    requires |transformed| >= |masks| - 1
    requires forall c :: 0 <= c < |masks| ==> 0.0 <= masks[c][p]
    requires MaskWeight(masks, p, 0, |masks|) == 1.0
    requires lo <= input[p] <= hi
    requires forall k :: 0 <= k < |masks| - 1 ==> lo <= transformed[k][p] <= hi
    ensures lo <= Composite(masks, input, transformed)[p] <= hi
  {
    var n := Paired(masks, transformed);
    WeightedBounds(masks, transformed, p, 0, n, lo, hi);
    var rest, restWeight := Weighted(masks, transformed, p, 0, n), MaskWeight(masks, p, 1, |masks|);
    assert masks[0][p] + restWeight == 1.0;
    var out := Composite(masks, input, transformed);
    ConvexStep(out[p], masks[0][p], input[p], rest, restWeight, lo, hi);
  }

  /** The reference sum reads only the first `n` candidates. */
  lemma {:induction false} WeightedReadsPrefix(masks: seq<Image>, t1: seq<Image>, t2: seq<Image>,
                                               p: nat, j: nat, n: nat)
    requires n <= |t1| && n <= |t2| && n + 1 <= |masks|
    requires forall c :: 0 <= c < |masks| ==> p < |masks[c]|
    requires forall k :: 0 <= k < |t1| ==> p < |t1[k]|
    requires forall k :: 0 <= k < |t2| ==> p < |t2[k]|
    requires t1[..n] == t2[..n]
    ensures Weighted(masks, t1, p, j, n) == Weighted(masks, t2, p, j, n)
    decreases n - j
  {
    if j < n {
      assert t1[j] == t1[..n][j] == t2[..n][j] == t2[j];
      WeightedReadsPrefix(masks, t1, t2, p, j + 1, n);
    }
  }

  /** Candidates beyond the last mask channel never reach the output: once
      every channel has a partner, appending a candidate changes nothing. */
  lemma {:induction false} CompositeIgnoresSurplus(masks: seq<Image>, input: Image,
                                                   transformed: seq<Image>, extra: Image)
    requires |masks| >= 1
    requires SameSize(masks, |input|) && SameSize(transformed, |input|) && |extra| == |input|
    requires |transformed| >= |masks| - 1
    ensures Composite(masks, input, transformed + [extra]) == Composite(masks, input, transformed)
  {
    var t2 := transformed + [extra];
    var n := Paired(masks, transformed);
    assert Paired(masks, t2) == n;
    assert t2[..n] == transformed[..n];
    var a := Composite(masks, input, t2);
    var b := Composite(masks, input, transformed);
    forall p | 0 <= p < |input|
      ensures a[p] == b[p]
    {
      WeightedReadsPrefix(masks, t2, transformed, p, 0, n);
    }
  }

  /** In CDNA mode the direct guess and `num_masks` CDNA candidates make
      `num_masks + 1` candidates for `num_masks` channels after channel 0, so
      the last CDNA candidate is computed but never used. */
  lemma CdnaLastCandidateUnused(h: Hparams, masks: seq<Image>, input: Image, direct: Image,
                                cdna: seq<Image>, other: Image)
    requires h.modelOptions == "CDNA"
    requires |masks| == h.numMasks + 1 && |cdna| == h.numMasks >= 1
    requires SameSize(masks, |input|) && SameSize(cdna, |input|)
    requires |direct| == |input| && |other| == |input|
    ensures Candidates(h, direct, cdna, direct).Success?
    ensures var replaced := cdna[..|cdna| - 1] + [other];
      Composite(masks, input, Candidates(h, direct, cdna, direct).value)
      == Composite(masks, input, Candidates(h, direct, replaced, direct).value)
  {
    var kept := [direct] + cdna[..|cdna| - 1];
    assert [direct] + cdna == kept + [cdna[|cdna| - 1]];
    var replaced := cdna[..|cdna| - 1] + [other];
    assert [direct] + replaced == kept + [other];
    CompositeIgnoresSurplus(masks, input, kept, cdna[|cdna| - 1]);
    CompositeIgnoresSurplus(masks, input, kept, other);
  }
}

=== FILE: emily_driver.dfy ===
/** `NextFrameStochasticEmily.construct_model`: encode every frame, predict
    the next encoding from the current one and a latent draw, then decode
    each prediction with the encoder skips of the last context frame seen
    so far. Actions are dropped, and the input rewards are handed back
    unchanged as the reward predictions. */
module EmilyDriver {
  import opened Wrappers
  import opened Hparams
  import opened Towers
  import PySeq

  /** The collaborators of the driver: the encoder (an encoding and its
      skips), the posterior and predictor recurrent stacks, the decoder,
      the standard-normal draw of each prediction step, the
      reparameterisation `z * exp(logvar) + mu`, and the zero tensor. */
  datatype EmilyNets<!T, !C, !K> = EmilyNets(
    encoder: T -> (T, K),
    posterior: (T, LstmStates<C>) -> (T, T, LstmStates<C>),
    predictor: (T, T, LstmStates<C>) -> (T, LstmStates<C>),
    decoder: (T, K) -> T,
    noise: nat -> T,
    reparam: (T, T, T) -> T,
    zero: T)

  /** What one prediction step produced and ran on: the predicted encoding,
      the posterior's mean and log-variance, the latent fed to the
      predictor, the predictor states before and after the step, and the
      posterior states before and after it when the step ran the posterior
      (`None` when it did not). */
  datatype Predicted<T, C> = Predicted(encoding: T, mu: T, logvar: T, latent: T,
                                       predictorBefore: LstmStates<C>, predictorAfter: LstmStates<C>,
                                       posteriorRun: Option<(LstmStates<C>, LstmStates<C>)>)

  /** Record `p` is prediction step `j`: the predictor read the encoding of
      frame `j - 1` and the latent. In training the posterior read the
      encoding of frame `j`, giving mean and log-variance, and the latent is
      the reparameterised draw `j`; otherwise the posterior is not run, mean
      and log-variance are zero and the latent is the raw draw `j`. */
  ghost predicate PredictionStep<T, C, K>(nets: EmilyNets<T, C, K>, training: bool, encs: seq<T>, j: nat,
                                          p: Predicted<T, C>)
    requires 1 <= j < |encs|
  {
    && nets.predictor(encs[j - 1], p.latent, p.predictorBefore) == (p.encoding, p.predictorAfter)
    && if training then
         && p.posteriorRun.Some?
         && nets.posterior(encs[j], p.posteriorRun.value.0) == (p.mu, p.logvar, p.posteriorRun.value.1)
         && p.latent == nets.reparam(nets.noise(j), p.mu, p.logvar)
       else
         && p.posteriorRun.None?
         && p.mu == nets.zero && p.logvar == nets.zero
         && p.latent == nets.noise(j)
  }

  /** The encodings of every frame. */
  function Encodings<T, C, K>(nets: EmilyNets<T, C, K>, images: seq<T>): (r: seq<T>)
    ensures |r| == |images| && forall i :: 0 <= i < |images| ==> r[i] == nets.encoder(images[i]).0
  {
    seq(|images|, i requires 0 <= i < |images| => nets.encoder(images[i]).0)
  }

  /** The encoder skips of every frame. */
  function Skips<T, C, K>(nets: EmilyNets<T, C, K>, images: seq<T>): (r: seq<K>)
    ensures |r| == |images| && forall i :: 0 <= i < |images| ==> r[i] == nets.encoder(images[i]).1
  {
    seq(|images|, i requires 0 <= i < |images| => nets.encoder(images[i]).1)
  }

  /** Both steps ran the posterior, and `next` started from the posterior
      states `prev` handed on. */
  ghost predicate PosteriorHandsOn<T, C>(prev: Predicted<T, C>, next: Predicted<T, C>)
  {
    && prev.posteriorRun.Some?
    && next.posteriorRun.Some?
    && next.posteriorRun.value.0 == prev.posteriorRun.value.1
  }

  /** Prediction step `i` and the ones after it, starting from the given
      posterior and predictor states: each step is a `PredictionStep`, and
      each step after the first resumes from the states the previous step
      handed on. */
  function Predict<T, C, K>(nets: EmilyNets<T, C, K>, training: bool, encs: seq<T>, i: nat,
                            posterior: LstmStates<C>, predictor: LstmStates<C>): (r: seq<Predicted<T, C>>)
    requires 1 <= i
    decreases |encs| - i
    ensures |r| == if i < |encs| then |encs| - i else 0
    ensures !training ==> forall k :: 0 <= k < |r| ==> r[k].mu == nets.zero && r[k].logvar == nets.zero
    ensures forall k :: 0 <= k < |r| ==> PredictionStep(nets, training, encs, i + k, r[k])
    ensures |r| > 0 ==> r[0].predictorBefore == predictor
    ensures |r| > 0 && training ==> r[0].posteriorRun.Some? && r[0].posteriorRun.value.0 == posterior
    ensures forall k :: 0 < k < |r| ==> r[k].predictorBefore == r[k - 1].predictorAfter
    ensures training ==> forall k :: 0 < k < |r| ==> PosteriorHandsOn(r[k - 1], r[k])
  {
    if i >= |encs| then []
    else
      var z := nets.noise(i);
      var (mu, logvar, posterior') := if training then nets.posterior(encs[i], posterior)
                                      else (nets.zero, nets.zero, posterior);
      var latent := if training then nets.reparam(z, mu, logvar) else z;
      var (encoding, predictor') := nets.predictor(encs[i - 1], latent, predictor);
      var ran := if training then Some((posterior, posterior')) else None;
      var rest := Predict(nets, training, encs, i + 1, posterior', predictor');
      [Predicted(encoding, mu, logvar, latent, predictor, predictor', ran)] + rest
  }

  /** `min(context_frames - 1, i)`, the frame whose skips decode prediction `i`. */
  function SkipIndex(contextFrames: nat, i: nat): int {
    PySeq.Min(contextFrames - 1, i)
  }

  /** The skip index read as a Python list index into `T` frames. */
  function SkipFrame(contextFrames: nat, i: nat, frames: nat): (f: nat)
    requires i < frames
    ensures f < frames
    ensures contextFrames >= 1 ==> f <= i && f <= contextFrames - 1
    ensures contextFrames >= 1 ==> (f == i || f == contextFrames - 1)
    ensures contextFrames == 0 ==> f == frames - 1
  {
    PySeq.Position(SkipIndex(contextFrames, i), frames)
  }

  /** The driver's result. */
  datatype EmilyOut<T> = EmilyOut(genImages: seq<T>, genRewards: seq<T>, mus: seq<T>, logvars: seq<T>)

  /** The prediction steps of a run: from frame 1 on, with both LSTM stacks
      starting unset. */
  function Predictions<T, C, K>(h: Hparams, nets: EmilyNets<T, C, K>, images: seq<T>): (r: seq<Predicted<T, C>>)
    ensures |r| == if |images| >= 1 then |images| - 1 else 0
    ensures |r| > 0 ==> r[0].predictorBefore == Unset(h.predictorRnnLayers)
    ensures |r| > 0 && h.training ==> r[0].posteriorRun.Some? && r[0].posteriorRun.value.0 == Unset(h.posteriorRnnLayers)
  {
    Predict(nets, h.training, Encodings(nets, images), 1, Unset(h.posteriorRnnLayers), Unset(h.predictorRnnLayers))
  }

  /** `construct_model` of the Emily driver: frame `k + 1` is decoded from
      prediction `k` and the skips of frame `SkipFrame(k)`, and the latent
      statistics are those of the prediction steps. */
  function Run<T, C, K>(h: Hparams, nets: EmilyNets<T, C, K>, images: seq<T>, rewards: seq<T>): (r: EmilyOut<T>)
    ensures |r.genImages| == |r.mus| == |r.logvars| == if |images| >= 1 then |images| - 1 else 0
    ensures r.genRewards == rewards
    ensures !h.training ==> forall k :: 0 <= k < |r.mus| ==> r.mus[k] == nets.zero && r.logvars[k] == nets.zero
    ensures forall k :: 0 <= k < |r.mus| ==>
      r.mus[k] == Predictions(h, nets, images)[k].mu && r.logvars[k] == Predictions(h, nets, images)[k].logvar
    ensures forall k :: 0 <= k < |r.genImages| ==>
      r.genImages[k] == nets.decoder(Predictions(h, nets, images)[k].encoding,
                                     nets.encoder(images[SkipFrame(h.videoNumInputFrames, k, |images|)]).1)
  {
    var skips := Skips(nets, images);
    var predicted := Predictions(h, nets, images);
    var gen := seq(|predicted|, i requires 0 <= i < |predicted| =>
                   nets.decoder(predicted[i].encoding, skips[SkipFrame(h.videoNumInputFrames, i, |images|)]));
    EmilyOut(gen, rewards,
             seq(|predicted|, i requires 0 <= i < |predicted| => predicted[i].mu),
             seq(|predicted|, i requires 0 <= i < |predicted| => predicted[i].logvar))
  }

  /** Outside training the prediction steps do not read the posterior at
      all: any two posterior stacks give the same predictions. */
  lemma {:induction false} EvalPredictIgnoresPosterior<T, C, K>(
    nets1: EmilyNets<T, C, K>, nets2: EmilyNets<T, C, K>, encs: seq<T>, i: nat,
    posterior1: LstmStates<C>, posterior2: LstmStates<C>, predictor: LstmStates<C>)
    requires 1 <= i
    requires nets1.predictor == nets2.predictor && nets1.noise == nets2.noise && nets1.zero == nets2.zero
    ensures Predict(nets1, false, encs, i, posterior1, predictor) == Predict(nets2, false, encs, i, posterior2, predictor)
    decreases |encs| - i
  {
    if i < |encs| {
      var (_, predictor') := nets1.predictor(encs[i - 1], nets1.noise(i), predictor);
      EvalPredictIgnoresPosterior(nets1, nets2, encs, i + 1, posterior1, posterior2, predictor');
    }
  }

  /** The driver outside training: two models that share everything but the
      posterior stack and the reparameterisation produce the same frames. */
  lemma EvalIgnoresPosterior<T, C, K>(h: Hparams, nets1: EmilyNets<T, C, K>, nets2: EmilyNets<T, C, K>,
                                      images: seq<T>, rewards: seq<T>)
    requires !h.training
    requires nets1.encoder == nets2.encoder && nets1.predictor == nets2.predictor
    requires nets1.decoder == nets2.decoder && nets1.noise == nets2.noise && nets1.zero == nets2.zero
    ensures Run(h, nets1, images, rewards) == Run(h, nets2, images, rewards)
  {
    var encs := Encodings(nets1, images);
    assert encs == Encodings(nets2, images);
    EvalPredictIgnoresPosterior(nets1, nets2, encs, 1, Unset(h.posteriorRnnLayers),
                                Unset(h.posteriorRnnLayers), Unset(h.predictorRnnLayers));
  }

  /** Outside training, prediction `k` after step `i` reads only the
      encodings before `i + k`. */
  lemma {:induction false} EvalPredictReadsPrefix<T, C, K>(
    nets: EmilyNets<T, C, K>, encs1: seq<T>, encs2: seq<T>, i: nat,
    posterior: LstmStates<C>, predictor: LstmStates<C>, k: nat)
    requires 1 <= i && |encs1| == |encs2| && i + k < |encs1|
    requires encs1[..i + k] == encs2[..i + k]
    ensures k < |Predict(nets, false, encs1, i, posterior, predictor)|
    ensures k < |Predict(nets, false, encs2, i, posterior, predictor)|
    ensures Predict(nets, false, encs1, i, posterior, predictor)[k]
         == Predict(nets, false, encs2, i, posterior, predictor)[k]
    decreases k
  {
    assert encs1[i - 1] == encs1[..i + k][i - 1] == encs2[..i + k][i - 1] == encs2[i - 1];
    if k > 0 {
      var (_, predictor') := nets.predictor(encs1[i - 1], nets.noise(i), predictor);
      assert encs1[..i + 1 + (k - 1)] == encs2[..i + 1 + (k - 1)];
      EvalPredictReadsPrefix(nets, encs1, encs2, i + 1, posterior, predictor', k - 1);
    }
  }

  /** Causality outside training: with at least one context frame, the
      prediction of frame `k + 1` depends only on frames `0..k`, so two
      sequences that agree up to frame `k` get the same prediction. */
  lemma EvalPredictionIsCausal<T, C, K>(h: Hparams, nets: EmilyNets<T, C, K>,
                                        images1: seq<T>, images2: seq<T>, rewards: seq<T>, k: nat)
    requires !h.training && h.videoNumInputFrames >= 1
    requires |images1| == |images2| && k + 1 < |images1|
    requires images1[..k + 1] == images2[..k + 1]
    ensures k < |Run(h, nets, images1, rewards).genImages|
    ensures Run(h, nets, images1, rewards).genImages[k] == Run(h, nets, images2, rewards).genImages[k]
  {
    var encs1, encs2 := Encodings(nets, images1), Encodings(nets, images2);
    assert encs1[..k + 1] == encs2[..k + 1] by {
      forall j | 0 <= j < k + 1 ensures encs1[j] == encs2[j] {
        assert images1[j] == images1[..k + 1][j] == images2[..k + 1][j] == images2[j];
      }
    }
    EvalPredictReadsPrefix(nets, encs1, encs2, 1, Unset(h.posteriorRnnLayers), Unset(h.predictorRnnLayers), k);
    var f := SkipFrame(h.videoNumInputFrames, k, |images1|);
    assert images1[f] == images1[..k + 1][f] == images2[..k + 1][f] == images2[f];
  }

  /** Without context frames the skip index `-1` wraps around: every
      prediction is decoded with the skips of the last frame of the
      sequence, the very frame the last step is asked to predict. */
  lemma NoContextDecodesWithLastFrame<T, C, K>(h: Hparams, nets: EmilyNets<T, C, K>,
                                               images: seq<T>, rewards: seq<T>, k: nat)
    requires h.videoNumInputFrames == 0 && k + 1 < |images|
    ensures Run(h, nets, images, rewards).genImages[k]
         == nets.decoder(Predict(nets, h.training, Encodings(nets, images), 1,
                                 Unset(h.posteriorRnnLayers), Unset(h.predictorRnnLayers))[k].encoding,
                         nets.encoder(images[|images| - 1]).1)
  {
  }
}

=== FILE: hparams.dfy ===
/** The configuration the stochastic predictor reads, the errors it raises,
    and the small helpers that derive values from the configuration. */
module Hparams {
  import opened Wrappers
  import PySeq

  /** Every way a forward pass of the model can fail. The first two are the
      configuration errors the source raises on purpose; the others are the
      Python-level failures it runs into on degenerate configurations or
      inputs. */
  datatype Error =
    | DnaNeedsOneMask             // ValueError: DNA model with num_masks != 1
    | AnnealEndBeforeSecondStage  // ValueError: linear_anneal ending before the second stage
    | UnknownSchedule             // `beta` never bound: neither "constant" nor "linear_anneal"
    | LatentUnbound               // `latent_mean` never bound: scan driver without stochastic_model
    | EmptySequence               // `images[0]` of a sequence without frames
    | ShapeMismatch               // tensors that the tower combines do not line up
    | RankTooSmall                // transposing the first two axes of a tensor of rank below two

  /** The hyperparameters the core reads. `training` stands for
      `hparams.mode == ModeKeys.TRAIN`. */
  datatype Hparams = Hparams(
    training: bool,
    videoNumInputFrames: nat,
    videoNumTargetFrames: nat,
    numMasks: nat,
    modelOptions: string,
    stochasticModel: bool,
    rewardPrediction: bool,
    latentNumFrames: nat,
    tinyMode: bool,
    scheduledSamplingMode: string,
    scheduledSamplingDecaySteps: nat,
    scheduledSamplingK: real,
    latentLossMultiplier: real,
    latentLossMultiplierSchedule: string,
    numIterations2ndStage: int,
    annealEnd: int,
    hiddenSize: nat,
    posteriorRnnLayers: nat,
    predictorRnnLayers: nat)

  /** The global step assumed when the training loop has not created one. */
  const LargeStepNumber: int := 100000

  /** The global step, or the large sentinel when it is missing. */
  function GlobalStep(step: Option<int>): (s: int)
    ensures step.None? ==> s == LargeStepNumber
    ensures step.Some? ==> s == step.value
  {
    match step
    case None => LargeStepNumber
    case Some(n) => n
  }

  /** Tiny mode shrinks every entry of a size schedule to 1 and keeps its
      length; otherwise the schedule is used as given. */
  function Tinyify(tinyMode: bool, sizes: seq<int>): (r: seq<int>)
    ensures |r| == |sizes|
    ensures tinyMode ==> forall i :: 0 <= i < |r| ==> r[i] == 1
    ensures !tinyMode ==> r == sizes
  {
    if tinyMode then seq(|sizes|, _ => 1) else sizes
  }

  /** The number of frames the latent tower sees: the configured count, or
      every input and target frame when it is left at 0. */
  function LatentNumFrames(h: Hparams): (n: nat)
    ensures h.latentNumFrames != 0 ==> n == h.latentNumFrames
    ensures h.latentNumFrames == 0 ==> n == h.videoNumInputFrames + h.videoNumTargetFrames
  {
    if h.latentNumFrames == 0 then h.videoNumInputFrames + h.videoNumTargetFrames
    else h.latentNumFrames
  }

  /** `images[:latent_num_frames]`: the frames the latent tower concatenates. */
  function LatentWindow<T>(h: Hparams, images: seq<T>): (w: seq<T>)
    ensures |w| == PySeq.Min(LatentNumFrames(h), |images|)
    ensures w == images[..|w|]
  {
    PySeq.Upto(images, LatentNumFrames(h))
  }

  /** With the default of 0 the latent tower sees every frame of a sequence
      made of the input and target frames, and never more than it has. */
  lemma DefaultLatentWindowIsWholeSequence<T>(h: Hparams, images: seq<T>)
    requires h.latentNumFrames == 0
    requires |images| == h.videoNumInputFrames + h.videoNumTargetFrames
    ensures LatentWindow(h, images) == images
  {
  }

  /** A configured window of `n` frames takes the first `n` frames, or all of
      them when the sequence is shorter (a Python slice never fails). */
  lemma ConfiguredLatentWindow<T>(h: Hparams, images: seq<T>)
    requires h.latentNumFrames != 0
    ensures |images| <= h.latentNumFrames ==> LatentWindow(h, images) == images
    ensures h.latentNumFrames < |images| ==> LatentWindow(h, images) == images[..h.latentNumFrames]
  {
  }
}

=== FILE: loss.dfy ===
/** The extra loss of `body`: the KL weight `beta` under the "constant" and
    "linear_anneal" schedules, the KL term collected over the latent
    statistics in training, and their product. Values are exact reals; the
    one floating-point outcome that matters, the `0 / 0` of the anneal ramp,
    is kept as an explicit not-a-number value. */
module Loss {
  import opened Wrappers
  import opened Hparams
  import PySeq

  /** A floating-point scalar as far as the loss needs one. */
  datatype Scalar = Finite(v: real) | NaN

  /** `latent_loss_multiplier * (1 - (anneal_end - step) / (anneal_end - second_stage))`
      for a ramp of nonzero width. */
  function Ramp(multiplier: real, secondStage: int, annealEnd: int, step: int): real
    requires secondStage < annealEnd
  {
    multiplier * (1.0 - (annealEnd - step) as real / (annealEnd - secondStage) as real)
  }

  /** The KL weight exactly as the source computes it. Its guard rejects an
      anneal end strictly before the second stage, so equal stages get
      through, and at the step where they meet the ramp divides zero by
      zero. */
  function BetaAsWritten(h: Hparams, step: int): (r: Result<Scalar, Error>)
    ensures r.Failure? <==>
      || (h.latentLossMultiplierSchedule != "constant" && h.latentLossMultiplierSchedule != "linear_anneal")
      || (h.latentLossMultiplierSchedule == "linear_anneal" && h.annealEnd < h.numIterations2ndStage)
    ensures r.Success? && r.value.NaN? ==>
      h.latentLossMultiplierSchedule == "linear_anneal" && h.annealEnd == h.numIterations2ndStage == step
  {
    var ss, ae, mult := h.numIterations2ndStage, h.annealEnd, h.latentLossMultiplier;
    if h.latentLossMultiplierSchedule == "constant" then
      Success(Finite(if step > ss then mult else 0.0))
    else if h.latentLossMultiplierSchedule == "linear_anneal" then
      if ae < ss then Failure(AnnealEndBeforeSecondStage)
      else if step < ss then Success(Finite(0.0))
      else if step > ae then Success(Finite(mult))
      else if ae == ss then Success(NaN)
      else Success(Finite(Ramp(mult, ss, ae, step)))
    else Failure(UnknownSchedule)
  }

  /** The KL weight with the guard the error message describes: the anneal
      end must come strictly after the second stage. */
  function Beta(h: Hparams, step: int): (r: Result<real, Error>)
    ensures r.Failure? <==>
      || (h.latentLossMultiplierSchedule != "constant" && h.latentLossMultiplierSchedule != "linear_anneal")
      || (h.latentLossMultiplierSchedule == "linear_anneal" && h.annealEnd <= h.numIterations2ndStage)
    ensures r.Failure? && h.latentLossMultiplierSchedule == "linear_anneal" ==> r.error == AnnealEndBeforeSecondStage
    ensures r.Failure? && h.latentLossMultiplierSchedule != "linear_anneal" ==> r.error == UnknownSchedule
  {
    var ss, ae, mult := h.numIterations2ndStage, h.annealEnd, h.latentLossMultiplier;
    if h.latentLossMultiplierSchedule == "constant" then
      Success(if step > ss then mult else 0.0)
    else if h.latentLossMultiplierSchedule == "linear_anneal" then
      if ae <= ss then Failure(AnnealEndBeforeSecondStage)
      else if step < ss then Success(0.0)
      else if step > ae then Success(mult)
      else Success(Ramp(mult, ss, ae, step))
    else Failure(UnknownSchedule)
  }

  /** The ramp is the multiplier scaled by the fraction of the annealing
      window already travelled. */
  lemma RampIsFraction(multiplier: real, secondStage: int, annealEnd: int, step: int)
    requires secondStage < annealEnd
    ensures Ramp(multiplier, secondStage, annealEnd, step)
         == multiplier * ((step - secondStage) as real / (annealEnd - secondStage) as real)
  {
    var d := (annealEnd - secondStage) as real;
    assert (annealEnd - step) as real / d + (step - secondStage) as real / d == d / d;
  }

  /** The constant schedule switches the full multiplier on strictly after
      the second stage and leaves beta at zero up to it. */
  lemma ConstantSchedule(h: Hparams, step: int)
    requires h.latentLossMultiplierSchedule == "constant"
    ensures Beta(h, step).Success?
    ensures step > h.numIterations2ndStage ==> Beta(h, step).value == h.latentLossMultiplier
    ensures step <= h.numIterations2ndStage ==> Beta(h, step).value == 0.0
  {
  }

  /** The linear anneal starts at zero at the second stage, reaches the
      multiplier at the anneal end, and stays between the two for a
      nonnegative multiplier. */
  lemma LinearAnnealEndpoints(h: Hparams, step: int)
    requires h.latentLossMultiplierSchedule == "linear_anneal"
    requires h.numIterations2ndStage < h.annealEnd
    ensures Beta(h, step).Success?
    ensures step <= h.numIterations2ndStage ==> Beta(h, step).value == 0.0
    ensures step >= h.annealEnd ==> Beta(h, step).value == h.latentLossMultiplier
    ensures h.latentLossMultiplier >= 0.0 ==> 0.0 <= Beta(h, step).value <= h.latentLossMultiplier
  {
    var ss, ae, mult := h.numIterations2ndStage, h.annealEnd, h.latentLossMultiplier;
    if ss <= step <= ae {
      RampIsFraction(mult, ss, ae, step);
      var f := (step - ss) as real / (ae - ss) as real;
      assert 0.0 <= f <= 1.0;
      if mult >= 0.0 {
        assert mult - mult * f == mult * (1.0 - f);
      }
    }
  }

  /** With a nonnegative multiplier the linear anneal never decreases as
      training advances. */
  lemma {:induction false} LinearAnnealIsMonotone(h: Hparams, step1: int, step2: int)
    requires h.latentLossMultiplierSchedule == "linear_anneal"
    requires h.numIterations2ndStage < h.annealEnd
    requires h.latentLossMultiplier >= 0.0 && step1 <= step2
    ensures Beta(h, step1).Success? && Beta(h, step2).Success?
    ensures Beta(h, step1).value <= Beta(h, step2).value
  {
    LinearAnnealEndpoints(h, step1);
    LinearAnnealEndpoints(h, step2);
    var ss, ae, mult := h.numIterations2ndStage, h.annealEnd, h.latentLossMultiplier;
    if ss <= step1 && step2 <= ae {
      RampIsMonotone(mult, ss, ae, step1, step2);
    }
  }

  /** Inside the annealing window a later step never ramps lower. */
  lemma RampIsMonotone(mult: real, ss: int, ae: int, step1: int, step2: int)
    requires ss < ae && mult >= 0.0 && step1 <= step2
    ensures Ramp(mult, ss, ae, step1) <= Ramp(mult, ss, ae, step2)
  {
    RampIsFraction(mult, ss, ae, step1);
    RampIsFraction(mult, ss, ae, step2);
    var d := (ae - ss) as real;
    var f1, f2 := (step1 - ss) as real / d, (step2 - ss) as real / d;
    assert f2 - f1 == (step2 - step1) as real / d;
    assert f2 - f1 >= 0.0;
    assert mult * (f2 - f1) >= 0.0;
    assert mult * f2 - mult * f1 == mult * (f2 - f1);
  }

  /** Wherever the guarded schedule answers, the source's schedule answers
      the same finite value; the two differ only when the stages are equal,
      which the source accepts and the guarded schedule rejects. */
  lemma AsWrittenAgreesWhereGuarded(h: Hparams, step: int)
    ensures Beta(h, step).Success? ==> BetaAsWritten(h, step) == Success(Finite(Beta(h, step).value))
    ensures Beta(h, step).Failure? && BetaAsWritten(h, step).Success? ==>
      h.latentLossMultiplierSchedule == "linear_anneal" && h.annealEnd == h.numIterations2ndStage
  {
  }

  /** The input showing the gap in the source's guard: a linear anneal whose
      end equals its second stage is accepted, and at that very step beta is
      `0 / 0`. The guarded schedule rejects the configuration. */
  lemma EqualStagesGiveNaN(h: Hparams)
    requires h.latentLossMultiplierSchedule == "linear_anneal"
    requires h.annealEnd == h.numIterations2ndStage
    ensures BetaAsWritten(h, h.annealEnd) == Success(NaN)
    ensures Beta(h, h.annealEnd) == Failure(AnnealEndBeforeSecondStage)
  {
  }

  /** `sum(kl_divergence(mean, std) for mean, std in pairs)`. */
  function KlSum<T>(kl: (T, T) -> real, pairs: seq<(T, T)>): real {
    if |pairs| == 0 then 0.0 else kl(pairs[0].0, pairs[0].1) + KlSum(kl, pairs[1..])
  }

  /** The KL term: summed over `zip(latent_means, latent_stds)` in training
      and zero otherwise. */
  function KlLoss<T>(training: bool, kl: (T, T) -> real, means: seq<T>, stds: seq<T>): (r: real)
    ensures !training ==> r == 0.0
  {
    if training then KlSum(kl, PySeq.Zip(means, stds)) else 0.0
  }

  /** A sum of nonnegative divergences is nonnegative, and it is zero when
      every divergence is. */
  lemma {:induction false} KlSumBounds<T>(kl: (T, T) -> real, pairs: seq<(T, T)>)
    requires forall k :: 0 <= k < |pairs| ==> kl(pairs[k].0, pairs[k].1) >= 0.0
    ensures KlSum(kl, pairs) >= 0.0
    ensures KlSum(kl, pairs) == 0.0 <==> forall k :: 0 <= k < |pairs| ==> kl(pairs[k].0, pairs[k].1) == 0.0
  {
    if |pairs| > 0 {
      KlSumBounds(kl, pairs[1..]);
      assert forall k :: 1 <= k < |pairs| ==> pairs[1..][k - 1] == pairs[k];
    }
  }

  /** The KL term of nonnegative divergences is nonnegative. */
  lemma KlLossNonnegative<T>(training: bool, kl: (T, T) -> real, means: seq<T>, stds: seq<T>)
    requires forall m, s :: kl(m, s) >= 0.0
    ensures KlLoss(training, kl, means, stds) >= 0.0
  {
    if training {
      KlSumBounds(kl, PySeq.Zip(means, stds));
    }
  }

  /** `extra_loss = beta * kl_loss`; not-a-number absorbs any factor. */
  function ExtraLoss(beta: Scalar, klLoss: real): (r: Scalar)
    ensures r.NaN? <==> beta.NaN?
    ensures klLoss == 0.0 && beta.Finite? ==> r == Finite(0.0)
  {
    match beta
    case NaN => NaN
    case Finite(b) => Finite(b * klLoss)
  }

  /** Outside training the extra loss vanishes for every schedule the
      guarded beta accepts. */
  lemma ExtraLossZeroOutsideTraining<T>(h: Hparams, step: int, kl: (T, T) -> real, means: seq<T>, stds: seq<T>)
    requires !h.training && Beta(h, step).Success?
    ensures ExtraLoss(Finite(Beta(h, step).value), KlLoss(h.training, kl, means, stds)) == Finite(0.0)
  {
  }

  /** With the source's guard the extra loss is not a number at the step
      where equal stages meet, in training or not. */
  lemma AsWrittenLossIsNaN<T>(h: Hparams, kl: (T, T) -> real, means: seq<T>, stds: seq<T>)
    requires h.latentLossMultiplierSchedule == "linear_anneal"
    requires h.annealEnd == h.numIterations2ndStage
    ensures ExtraLoss(BetaAsWritten(h, h.annealEnd).value, KlLoss(h.training, kl, means, stds)) == NaN
  {
  }
}

=== FILE: pyseq.dfy ===
/** Python's rules for indexing and slicing lists and tensors along their
    first axis, which the predictor relies on in `images[1:-1]`,
    `gen_images[n-1:]`, `images[:n]` and `enc_skips[-1]`. */
module PySeq {

  function Min(a: int, b: int): int {
    if a <= b then a else b
  }

  /** The position a slice bound `i` denotes in a sequence of length `n`:
      a negative bound counts from the end, and every bound is clamped to
      `[0, n]`. */
  function Bound(i: int, n: nat): (b: nat)
    ensures b <= n
    ensures 0 <= i <= n ==> b == i
    ensures 0 <= n + i && i < 0 ==> b == n + i
    ensures n + i < 0 ==> b == 0
    ensures n < i ==> b == n
  {
    if i < 0 then (if n + i < 0 then 0 else n + i)
    else if i > n then n
    else i
  }

  /** `s[i:j]`, empty when the start does not come before the stop. */
  function Slice<T>(s: seq<T>, i: int, j: int): (r: seq<T>)
    ensures |r| == if Bound(i, |s|) <= Bound(j, |s|) then Bound(j, |s|) - Bound(i, |s|) else 0
    ensures forall k :: 0 <= k < |r| ==> r[k] == s[Bound(i, |s|) + k]
  {
    var b, e := Bound(i, |s|), Bound(j, |s|);
    if b <= e then s[b..e] else []
  }

  /** `s[i:]`. */
  function From<T>(s: seq<T>, i: int): (r: seq<T>)
    ensures |r| == |s| - Bound(i, |s|)
    ensures forall k :: 0 <= k < |r| ==> r[k] == s[Bound(i, |s|) + k]
  {
    s[Bound(i, |s|)..]
  }

  /** `s[:j]`. */
  function Upto<T>(s: seq<T>, j: int): (r: seq<T>)
    ensures |r| == Bound(j, |s|)
    ensures r == s[..Bound(j, |s|)]
  {
    s[..Bound(j, |s|)]
  }

  /** The position `s[i]` reads: Python accepts `-n <= i < n` and raises
      `IndexError` otherwise, so callers must stay in that range. */
  function Position(i: int, n: nat): (p: nat)
    requires 0 <= n + i && i < n
    ensures p < n
    ensures 0 <= i ==> p == i
    ensures i < 0 ==> p == n + i
  {
    if i < 0 then n + i else i
  }

  /** `zip(a, b)`: pairs up positions and stops at the shorter list. */
  function Zip<A, B>(a: seq<A>, b: seq<B>): (r: seq<(A, B)>)
    ensures |r| == Min(|a|, |b|)
    ensures forall k :: 0 <= k < |r| ==> r[k] == (a[k], b[k])
  {
    seq(Min(|a|, |b|), k requires 0 <= k < Min(|a|, |b|) => (a[k], b[k]))
  }
}

=== FILE: scan_driver.dfy ===
/** `NextFrameStochastic.construct_model`: one latent for the whole
    sequence, a first step run outside the loop to seed the recurrent
    state, then a scan of the step over `images[1:-1]`.

    The scan packs each element as (image, action, reward) while the step
    unpacks it as (image, reward, action), so from the second step on the
    reward slot of the step carries the action and the action slot carries
    the reward. The first step is packed in the step's own order. The model
    keeps both orders exactly as they are. */
module ScanDriver {
  import opened Wrappers
  import opened Hparams
  import opened Towers
  import opened ScheduledSampling
  import opened Step
  import PySeq

  /** `(time_step, pred_image, pred_reward, lstm_states, reward_lstm_states)`,
      the outputs each step hands to the next. */
  datatype Carry<T, C> = Carry(timeStep: int, image: T, reward: T,
                               lstm: LstmStates<C>, rewardLstm: LstmStates<C>)

  /** The towers' outputs a carry holds. */
  function Emitted<T, C>(c: Carry<T, C>): Outputs<T, C> {
    Outputs(c.image, c.reward, c.lstm, c.rewardLstm)
  }

  /** `process_single_frame`: the element is read as
      `(cur_image, cur_reward, action)`, the previous outputs supply the
      generated pair and the states, the towers' outputs are carried on, and
      the step counter advances by one. */
  function ProcessSingleFrame<T(!new), C(!new)>(m: StepModel<T, C>, latent: Option<T>, prev: Carry<T, C>,
                                    inputs: (T, T, T)): (r: Result<(Carry<T, C>, StepInputs<T, C>), Error>)
    ensures r.Success? ==> r.value.0.timeStep == prev.timeStep + 1
    ensures r.Success? ==>
      var s := r.value.1;
      && s.timeStep == prev.timeStep && s.latent == latent
      && s.gtImage == inputs.0 && s.gtReward == inputs.1 && s.action == inputs.2
      && ContinuesFrom(s, Emitted(prev))
      && Scheduled(m.contextFrames, m.training, m.mix, s)
    ensures r.Success? ==> Outcome(m, r.value.1) == Success(Emitted(r.value.0))
    ensures var (inputImage, inputReward) := Choose(m, prev.timeStep, inputs.0, inputs.1, prev.image, prev.reward);
      var out := m.tower(inputImage, inputReward, inputs.2, prev.lstm, latent);
      (r.Failure? <==> out.Failure?) && (r.Failure? ==> r.error == out.error)
    ensures NeverFails(m.tower) ==> r.Success?
  {
    var (curImage, curReward, action) := inputs;
    var a := Advance(m, prev.timeStep, curImage, curReward, action, prev.image, prev.reward,
                     prev.lstm, prev.rewardLstm, latent);
    if a.Failure? then Failure(a.error)
    else
      var out := a.value.out;
      Success((Carry(prev.timeStep + 1, out.image, out.reward, out.lstm, out.rewardLstm), a.value.fed))
  }

  /** `tf.scan(process_single_frame, elems, init)`: the carried outputs after
      each element and what each step was fed, in order. */
  function Scan<T(!new), C(!new)>(m: StepModel<T, C>, latent: Option<T>, elems: seq<(T, T, T)>, init: Carry<T, C>)
    : (r: Result<(seq<Carry<T, C>>, seq<StepInputs<T, C>>), Error>)
    ensures r.Success? ==> |r.value.0| == |elems| && |r.value.1| == |elems|
    ensures r.Success? ==> forall k :: 0 <= k < |elems| ==>
      && r.value.1[k].timeStep == init.timeStep + k
      && r.value.1[k].latent == latent
      && r.value.1[k].gtImage == elems[k].0
      && r.value.1[k].gtReward == elems[k].1
      && r.value.1[k].action == elems[k].2
      && Scheduled(m.contextFrames, m.training, m.mix, r.value.1[k])
    ensures r.Success? ==> forall k :: 0 <= k < |elems| ==>
      Outcome(m, r.value.1[k]) == Success(Emitted(r.value.0[k]))
    ensures r.Success? && |elems| > 0 ==> ContinuesFrom(r.value.1[0], Emitted(init))
    ensures r.Success? ==> forall k :: 0 < k < |elems| ==> ContinuesFrom(r.value.1[k], Emitted(r.value.0[k - 1]))
    ensures NeverFails(m.tower) ==> r.Success?
    decreases |elems|
  {
    if |elems| == 0 then Success(([], []))
    else
      var first := ProcessSingleFrame(m, latent, init, elems[0]);
      if first.Failure? then Failure(first.error)
      else
        var rest := Scan(m, latent, elems[1..], first.value.0);
        if rest.Failure? then Failure(rest.error)
        else
          var (carries, steps) := rest.value;
          assert forall k :: 1 <= k < |elems| ==> elems[1..][k - 1] == elems[k];
          Success(([first.value.0] + carries, [first.value.1] + steps))
  }

  /** A scan whose tower always raises raises the same error, unless there
      is nothing to scan. */
  lemma {:induction false} ScanFailsWhenTowerFails<T(!new), C(!new)>(
    m: StepModel<T, C>, latent: Option<T>, elems: seq<(T, T, T)>, init: Carry<T, C>, e: Error)
    requires AlwaysFails(m.tower, e)
    ensures |elems| > 0 ==> Scan(m, latent, elems, init) == Failure(e)
    ensures |elems| == 0 ==> Scan(m, latent, elems, init).Success?
  {
    if |elems| > 0 {
      var (inputImage, inputReward) := Choose(m, init.timeStep, elems[0].0, elems[0].1, init.image, init.reward);
      assert m.tower(inputImage, inputReward, elems[0].2, init.lstm, latent) == Failure(e);
    }
  }

  /** The packing of the scan's elements: `(images[1:-1], actions[1:-1], rewards[1:-1])`. */
  function ScanElements<T>(images: seq<T>, actions: seq<T>, rewards: seq<T>): (elems: seq<(T, T, T)>)
    requires |actions| == |images| && |rewards| == |images|
    ensures |elems| == if |images| >= 2 then |images| - 2 else 0
    ensures forall k :: 0 <= k < |elems| ==> elems[k] == (images[k + 1], actions[k + 1], rewards[k + 1])
  {
    var ims, acts, rs := PySeq.Slice(images, 1, -1), PySeq.Slice(actions, 1, -1), PySeq.Slice(rewards, 1, -1);
    seq(|ims|, k requires 0 <= k < |ims| => (ims[k], acts[k], rs[k]))
  }

  /** A scan over the packed interior frames: step k reads interior frame
      k+1, and because of the packing order its reward slot holds the action
      and its action slot the reward. */
  lemma ScanReadsInterior<T(!new), C(!new)>(m: StepModel<T, C>, latent: Option<T>, init: Carry<T, C>,
                                            images: seq<T>, actions: seq<T>, rewards: seq<T>)
    requires |actions| == |images| && |rewards| == |images|
    requires Scan(m, latent, ScanElements(images, actions, rewards), init).Success?
    ensures var steps := Scan(m, latent, ScanElements(images, actions, rewards), init).value.1;
      && |steps| == (if |images| >= 2 then |images| - 2 else 0)
      && forall k :: 0 <= k < |steps| ==>
           && steps[k].gtImage == images[k + 1]
           && steps[k].gtReward == actions[k + 1]
           && steps[k].action == rewards[k + 1]
  {
  }

  /** The driver's result: its outputs and what each step was fed. */
  datatype ScanRun<T, C> = ScanRun(out: DriverOut<T>, steps: seq<StepInputs<T, C>>)

  /** The images of a list of carried outputs. */
  function Images<T, C>(cs: seq<Carry<T, C>>): (r: seq<T>)
    ensures |r| == |cs| && forall k :: 0 <= k < |cs| ==> r[k] == cs[k].image
  {
    seq(|cs|, k requires 0 <= k < |cs| => cs[k].image)
  }

  /** The rewards of a list of carried outputs. */
  function Rewards<T, C>(cs: seq<Carry<T, C>>): (r: seq<T>)
    ensures |r| == |cs| && forall k :: 0 <= k < |cs| ==> r[k] == cs[k].reward
  {
    seq(|cs|, k requires 0 <= k < |cs| => cs[k].reward)
  }

  /** Every element the step function reads, in order: the first step's
      `(images[0], rewards[0], actions[0])` in the step's own order, then the
      scan's elements as they are packed. */
  function Elements<T>(images: seq<T>, actions: seq<T>, rewards: seq<T>): (elems: seq<(T, T, T)>)
    requires |actions| == |images| && |rewards| == |images| && |images| >= 1
    ensures |elems| == if |images| >= 2 then |images| - 1 else 1
    ensures elems[0] == (images[0], rewards[0], actions[0])
    ensures forall k :: 1 <= k < |elems| ==> elems[k] == (images[k], actions[k], rewards[k])
  {
    [(images[0], rewards[0], actions[0])] + ScanElements(images, actions, rewards)
  }

  /** The first step, run outside the scan from unset states, followed by the
      scan over the interior frames: since the scan starts from the first
      step's outputs, this is one scan over all the elements. */
  function Rollout<T(!new), C(!new)>(m: StepModel<T, C>, latent: Option<T>,
                         images: seq<T>, actions: seq<T>, rewards: seq<T>)
    : (r: Result<(seq<Carry<T, C>>, seq<StepInputs<T, C>>), Error>)
    requires |actions| == |images| && |rewards| == |images| && |images| >= 1
    ensures r.Success? ==>
      var n := if |images| >= 2 then |images| - 1 else 1;
      |r.value.0| == n && |r.value.1| == n
    ensures r.Success? ==> forall k :: 0 <= k < |r.value.1| ==>
      && r.value.1[k].timeStep == k && r.value.1[k].latent == latent
      && Scheduled(m.contextFrames, m.training, m.mix, r.value.1[k])
    ensures r.Success? ==>
      var s := r.value.1[0];
      && s.gtImage == images[0] && s.gtReward == rewards[0] && s.action == actions[0]
      && s.genImage == images[0] && s.genReward == rewards[0]
      && s.lstm == Unset(MainTowerLayers) && s.rewardLstm == Unset(RewardTowerLayers)
    ensures r.Success? ==> forall k :: 1 <= k < |r.value.1| ==>
      && r.value.1[k].gtImage == images[k]
      && r.value.1[k].gtReward == actions[k]
      && r.value.1[k].action == rewards[k]
    ensures r.Success? ==> forall k :: 0 <= k < |r.value.1| ==>
      Outcome(m, r.value.1[k]) == Success(Emitted(r.value.0[k]))
    ensures r.Success? ==> forall k :: 1 <= k < |r.value.1| ==> ContinuesFrom(r.value.1[k], Emitted(r.value.0[k - 1]))
    ensures NeverFails(m.tower) ==> r.Success?
  {
    Scan(m, latent, Elements(images, actions, rewards),
         Carry(0, images[0], rewards[0], Unset(MainTowerLayers), Unset(RewardTowerLayers)))
  }

  /** Carried outputs that the steps produced and resumed from form the
      shared recurrence, once the first step starts from unset states. */
  lemma {:induction false} CarriesAreRecurrent<T, C>(m: StepModel<T, C>, carries: seq<Carry<T, C>>,
                                                     steps: seq<StepInputs<T, C>>)
    requires |carries| == |steps|
    requires |steps| > 0 ==>
      steps[0].lstm == Unset(MainTowerLayers) && steps[0].rewardLstm == Unset(RewardTowerLayers)
    requires forall k :: 0 <= k < |steps| ==> Outcome(m, steps[k]) == Success(Emitted(carries[k]))
    requires forall k :: 1 <= k < |steps| ==> ContinuesFrom(steps[k], Emitted(carries[k - 1]))
    ensures Recurrent(m, steps, Images(carries), Rewards(carries))
  {
    var images, rewards := Images(carries), Rewards(carries);
    forall k | 0 <= k < |steps|
      ensures Produced(m, steps[k], images[k], rewards[k])
    {
      assert Outcome(m, steps[k]) == Success(Emitted(carries[k]));
    }
    forall k | 1 <= k < |steps|
      ensures Threaded(m, steps[k - 1], steps[k])
    {
      assert Outcome(m, steps[k - 1]) == Success(Emitted(carries[k - 1]));
      assert ContinuesFrom(steps[k], Emitted(carries[k - 1]));
    }
  }

  /** `construct_model` of the scan driver. */
  function Run<T(!new), C(!new)>(h: Hparams, nets: Nets<T, C>, globalStep: Option<int>,
                     images: seq<T>, actions: seq<T>, rewards: seq<T>): (r: Result<ScanRun<T, C>, Error>)
    requires |actions| == |images| && |rewards| == |images|
    ensures |images| == 0 ==> r == Failure(EmptySequence)
    ensures !h.stochasticModel ==> r.Failure?
    ensures r.Success? ==>
      var n := if |images| >= 2 then |images| - 1 else 1;
      && |r.value.out.genImages| == n && |r.value.out.genRewards| == n && |r.value.steps| == n
      && r.value.out.latentMeans == [LatentTower(h, nets.latentConv, nets.zero, images).0]
      && r.value.out.latentStds == [LatentTower(h, nets.latentConv, nets.zero, images).1]
    ensures r.Success? ==> forall k :: 0 <= k < |r.value.steps| ==>
      && r.value.steps[k].timeStep == k
      && r.value.steps[k].latent == Some(nets.sample(0, r.value.out.latentMeans[0], r.value.out.latentStds[0]))
      && Scheduled(h.videoNumInputFrames, h.training, nets.sampler(SchedulePolicy(h, globalStep)), r.value.steps[k])
    ensures r.Success? ==>
      var s := r.value.steps[0];
      && s.gtImage == images[0] && s.gtReward == rewards[0] && s.action == actions[0]
      && s.genImage == images[0] && s.genReward == rewards[0]
    ensures r.Success? ==> forall k :: 1 <= k < |r.value.steps| ==>
      && r.value.steps[k].gtImage == images[k]
      && r.value.steps[k].gtReward == actions[k]
      && r.value.steps[k].action == rewards[k]
    ensures r.Success? ==>
      Recurrent(ModelOf(h, nets, globalStep), r.value.steps, r.value.out.genImages, r.value.out.genRewards)
    ensures NeverFails(nets.tower) && h.stochasticModel && |images| >= 1 ==> r.Success?
  {
    if |images| == 0 then Failure(EmptySequence)
    else
      var m := ModelOf(h, nets, globalStep);
      var stats := LatentTower(h, nets.latentConv, nets.zero, images);
      var latent := if h.stochasticModel then Some(nets.sample(0, stats.0, stats.1)) else None;
      var rolled := Rollout(m, latent, images, actions, rewards);
      if rolled.Failure? then Failure(rolled.error)
      else if !h.stochasticModel then Failure(LatentUnbound)
      else
        var (carries, steps) := rolled.value;
        CarriesAreRecurrent(m, carries, steps);
        Success(ScanRun(DriverOut(Images(carries), Rewards(carries), [stats.0], [stats.1]), steps))
  }

  /** With a tower that always raises, the driver raises the same error on
      any non-empty sequence: the first step runs the tower before anything
      else can fail. */
  lemma RunFailsWhenTowerFails<T(!new), C(!new)>(h: Hparams, nets: Nets<T, C>, globalStep: Option<int>,
                                                 images: seq<T>, actions: seq<T>, rewards: seq<T>, e: Error)
    requires |actions| == |images| && |rewards| == |images| && |images| > 0
    requires AlwaysFails(nets.tower, e)
    ensures Run(h, nets, globalStep, images, actions, rewards) == Failure(e)
  {
    var m := ModelOf(h, nets, globalStep);
    var stats := LatentTower(h, nets.latentConv, nets.zero, images);
    var latent := if h.stochasticModel then Some(nets.sample(0, stats.0, stats.1)) else None;
    var (inputImage, inputReward) := Choose(m, 0, images[0], rewards[0], images[0], rewards[0]);
    assert m.tower(inputImage, inputReward, actions[0], Unset(MainTowerLayers), latent) == Failure(e);
  }

  /** A consequence of the packing order: without reward prediction, every
      warm-start step after the first feeds the tower the action in the
      reward slot, and the reward it reports is that action. */
  lemma RewardSlotCarriesActions<T(!new), C(!new)>(h: Hparams, nets: Nets<T, C>, globalStep: Option<int>,
                                       images: seq<T>, actions: seq<T>, rewards: seq<T>, k: nat)
    requires |actions| == |images| && |rewards| == |images|
    requires Run(h, nets, globalStep, images, actions, rewards).Success?
    requires 1 <= k < |images| - 1 && k < h.videoNumInputFrames
    ensures Run(h, nets, globalStep, images, actions, rewards).value.steps[k].inputReward == actions[k]
    ensures !h.rewardPrediction ==> Run(h, nets, globalStep, images, actions, rewards).value.out.genRewards[k] == actions[k]
  {
    var run := Run(h, nets, globalStep, images, actions, rewards).value;
    var m := ModelOf(h, nets, globalStep);
    var s := run.steps[k];
    assert s.timeStep == k && s.gtReward == actions[k];
    assert Scheduled(m.contextFrames, m.training, m.mix, s);
    if !h.rewardPrediction {
      assert Produced(m, s, run.out.genImages[k], run.out.genRewards[k]);
      PassThroughReward(m, s);
    }
  }

  /** Outside training, once warm-start is over every step is fed the
      frame and reward the previous step generated. */
  lemma EvalFeedsBackPredictions<T(!new), C(!new)>(h: Hparams, nets: Nets<T, C>, globalStep: Option<int>,
                                       images: seq<T>, actions: seq<T>, rewards: seq<T>, k: nat)
    requires |actions| == |images| && |rewards| == |images|
    requires Run(h, nets, globalStep, images, actions, rewards).Success?
    requires !h.training && 1 <= k < |images| - 1 && h.videoNumInputFrames <= k
    ensures var run := Run(h, nets, globalStep, images, actions, rewards).value;
      run.steps[k].inputImage == run.out.genImages[k - 1] && run.steps[k].inputReward == run.out.genRewards[k - 1]
  {
    var run := Run(h, nets, globalStep, images, actions, rewards).value;
    var m := ModelOf(h, nets, globalStep);
    var prev, s := run.steps[k - 1], run.steps[k];
    assert Produced(m, prev, run.out.genImages[k - 1], run.out.genRewards[k - 1]);
    assert Threaded(m, prev, s);
    assert s.genImage == run.out.genImages[k - 1] && s.genReward == run.out.genRewards[k - 1];
    assert s.timeStep == k && Scheduled(m.contextFrames, m.training, m.mix, s);
  }
}

=== FILE: scheduled_sampling.dfy ===
/** The scheduled-sampling controller: which decay policy drives the mix,
    and the three-way choice between the ground-truth and the generated
    (image, reward) pair. The random per-example draw itself is a
    function-valued parameter `mix`, indexed by the position of the item it
    mixes: every call of the sampling function draws afresh, so the two
    items of a step need not share a draw. */
module ScheduledSampling {
  import opened Wrappers
  import opened Hparams
  import PySeq

  /** The two decay policies and the iteration number they are fed. */
  datatype Policy =
    | ProbabilityDecay(decaySteps: nat, iterNum: int)  // P(ground truth) decays polynomially from 1.0 to 0.0
    | GroundTruthCount(k: real, iterNum: int)          // a decaying count of examples get ground truth

  /** `get_scheduled_sample_func`, reduced to its discrete choices: a missing
      global step becomes the large sentinel, mode "prob" selects the
      probability policy and every other mode the count policy. */
  function SchedulePolicy(h: Hparams, globalStep: Option<int>): (p: Policy)
    ensures globalStep.None? ==> p.iterNum == LargeStepNumber
    ensures globalStep.Some? ==> p.iterNum == globalStep.value
    ensures p.ProbabilityDecay? <==> h.scheduledSamplingMode == "prob"
    ensures p.ProbabilityDecay? ==> p.decaySteps == h.scheduledSamplingDecaySteps
    ensures p.GroundTruthCount? ==> p.k == h.scheduledSamplingK
  {
    var iterNum := GlobalStep(globalStep);
    if h.scheduledSamplingMode == "prob" then ProbabilityDecay(h.scheduledSamplingDecaySteps, iterNum)
    else GroundTruthCount(h.scheduledSamplingK, iterNum)
  }

  /** A step is past warm-start once its index exceeds `context_frames - 1`. */
  predicate DoneWarmStart(timeStep: int, contextFrames: int) {
    timeStep > contextFrames - 1
  }

  /** `get_scheduled_sample_inputs`: ground truth while warming up, else the
      generated items outside training, else the per-position mix of the two
      lists (which, like `zip`, stops at the shorter one); `mix(i, gt, gen)`
      is the draw for the item at position `i`. */
  function SelectInputs<T>(doneWarmStart: bool, training: bool, groundTruth: seq<T>,
                           generated: seq<T>, mix: (nat, T, T) -> T): (r: seq<T>)
    ensures !doneWarmStart ==> r == groundTruth
    ensures doneWarmStart && !training ==> r == generated
    ensures doneWarmStart && training ==> |r| == PySeq.Min(|groundTruth|, |generated|)
    ensures doneWarmStart && training ==>
      forall i :: 0 <= i < |r| ==> r[i] == mix(i, groundTruth[i], generated[i])
  {
    if !doneWarmStart then groundTruth
    else if !training then generated
    else
      var pairs := PySeq.Zip(groundTruth, generated);
      seq(|pairs|, i requires 0 <= i < |pairs| => mix(i, pairs[i].0, pairs[i].1))
  }

  /** Whatever branch is taken, lists of equal length come back with that
      length and every position holds the ground-truth item, the generated
      item or their mix: positions are never reordered or crossed. */
  lemma SelectKeepsPositions<T>(doneWarmStart: bool, training: bool, groundTruth: seq<T>,
                                generated: seq<T>, mix: (nat, T, T) -> T)
    requires |groundTruth| == |generated|
    ensures |SelectInputs(doneWarmStart, training, groundTruth, generated, mix)| == |groundTruth|
    ensures forall i :: 0 <= i < |groundTruth| ==>
      var r := SelectInputs(doneWarmStart, training, groundTruth, generated, mix);
      r[i] == groundTruth[i] || r[i] == generated[i] || r[i] == mix(i, groundTruth[i], generated[i])
  {
  }

  /** The sampling draw matters only in training past warm-start: with any
      other combination two different draws give the same inputs, and the
      warm-start branch wins over the evaluation branch. */
  lemma MixUsedOnlyWhenSampling<T>(doneWarmStart: bool, training: bool, groundTruth: seq<T>,
                                   generated: seq<T>, mix1: (nat, T, T) -> T, mix2: (nat, T, T) -> T)
    requires !(doneWarmStart && training)
    ensures SelectInputs(doneWarmStart, training, groundTruth, generated, mix1)
         == SelectInputs(doneWarmStart, training, groundTruth, generated, mix2)
    ensures !doneWarmStart ==>
      SelectInputs(doneWarmStart, false, groundTruth, generated, mix1) == groundTruth
  {
  }
}

=== FILE: shapes.dfy ===
/** Shape-level model of the axis swap between batch-major features and the
    time-major sequences the drivers consume, and of the zero-filled
    fallback for missing action and reward features. */
module Shapes {
  import opened Wrappers
  import opened Hparams

  type Shape = seq<int>

  /** `swap_time_and_batch_axes`: the permutation `[1, 0, 2, ..., rank-1]`.
      A tensor of rank below two cannot be transposed by it. */
  function SwapTimeAndBatchAxes(shape: Shape): (r: Result<Shape, Error>)
    ensures |shape| < 2 <==> r.Failure?
    ensures r.Failure? ==> r.error == RankTooSmall
    ensures r.Success? ==> |r.value| == |shape|
    ensures r.Success? ==> r.value[0] == shape[1] && r.value[1] == shape[0]
    ensures r.Success? ==> r.value[2..] == shape[2..]
  {
    if |shape| < 2 then Failure(RankTooSmall)
    else Success([shape[1], shape[0]] + shape[2..])
  }

  /** Swapping twice gives back the original shape, and the swap keeps the
      same dimensions (as a multiset). */
  lemma {:induction false} SwapIsInvolution(shape: Shape)
    requires |shape| >= 2
    ensures SwapTimeAndBatchAxes(shape).Success?
    ensures SwapTimeAndBatchAxes(SwapTimeAndBatchAxes(shape).value) == Success(shape)
    ensures multiset(SwapTimeAndBatchAxes(shape).value) == multiset(shape)
  {
    var s := SwapTimeAndBatchAxes(shape).value;
    assert s == [shape[1], shape[0]] + shape[2..];
    assert [s[1], s[0]] + s[2..] == shape;
    assert shape == [shape[0]] + [shape[1]] + shape[2..];
  }

  /** `get_input_if_exists`: the feature's shape when present, otherwise the
      shape `(batch, frames, 1, hidden_size)` of the zero tensor that stands in
      for it; either way moved to time-major order. `Body.InputIfExists` is
      the same result as a sequence of time steps, and
      `Body.InputViewsAgree` shows that the leading dimension here is its
      length. */
  function InputShapeIfExists(features: map<string, Shape>, key: string, batchSize: int,
                              numFrames: int, h: Hparams): (r: Result<Shape, Error>)
    ensures key !in features ==> r == Success([numFrames, batchSize, 1, h.hiddenSize])
    ensures key in features ==> r == SwapTimeAndBatchAxes(features[key])
  {
    if key in features then SwapTimeAndBatchAxes(features[key])
    else
      var x := [batchSize, numFrames, 1, h.hiddenSize];
      assert [x[1], x[0]] + x[2..] == [numFrames, batchSize, 1, h.hiddenSize];
      SwapTimeAndBatchAxes(x)
  }
}

=== FILE: step.dfy ===
/** One time step of the predictor, shared by the scan driver and the
    two-frame driver: scheduled sampling picks the (image, reward) pair, the
    predictive tower turns it into the next frame, and the reward tower
    predicts the next reward or the chosen reward is passed through. */
module Step {
  import opened Wrappers
  import opened Hparams
  import opened Towers
  import opened ScheduledSampling

  /** What one step offered to and fed the towers. */
  datatype StepInputs<T, C> = StepInputs(
    timeStep: int,
    gtImage: T, gtReward: T,         // the ground-truth pair offered to scheduled sampling
    genImage: T, genReward: T,       // the generated pair offered to scheduled sampling
    action: T,
    inputImage: T, inputReward: T,   // the pair scheduled sampling chose
    latent: Option<T>,
    lstm: LstmStates<C>,             // the predictive tower's states the step started from
    rewardLstm: LstmStates<C>)       // the reward tower's states the step started from

  /** The parts of a step that stay fixed over a sequence. `mix(t, i, gt,
      gen)` is the scheduled-sampling draw of step `t` for item `i`. */
  datatype StepModel<!T, !C> = StepModel(
    contextFrames: nat,
    training: bool,
    mix: (int, nat, T, T) -> T,
    tower: MainTower<T, C>,
    rewardTower: Option<RewardTower<T, C>>)

  /** The collaborators a driver is built from: the latent tower's
      convolution stack, the zero tensor, the reparameterised Gaussian draw,
      the sampling draw each decay policy realises, and the two towers. Each
      random draw carries an index, so that draws made at different steps
      may differ. */
  datatype Nets<!T, !C> = Nets(
    latentConv: seq<T> -> (T, T),
    zero: T,
    sample: (nat, T, T) -> T,
    sampler: Policy -> ((int, nat, T, T) -> T),
    tower: MainTower<T, C>,
    rewardTower: RewardTower<T, C>)

  /** The generated frames and rewards of a driver and the latent statistics
      it collected for the KL term. */
  datatype DriverOut<T> = DriverOut(genImages: seq<T>, genRewards: seq<T>,
                                    latentMeans: seq<T>, latentStds: seq<T>)

  /** The step configuration a driver derives: warm-start length from the
      input frame count, the draw of the configured policy, and the reward
      tower only when reward prediction is on. */
  function ModelOf<T, C>(h: Hparams, nets: Nets<T, C>, globalStep: Option<int>): (m: StepModel<T, C>)
    ensures m.contextFrames == h.videoNumInputFrames && m.training == h.training
    ensures m.mix == nets.sampler(SchedulePolicy(h, globalStep))
    ensures m.tower == nets.tower
    ensures m.rewardTower.Some? <==> h.rewardPrediction
  {
    StepModel(h.videoNumInputFrames, h.training, nets.sampler(SchedulePolicy(h, globalStep)),
              nets.tower, if h.rewardPrediction then Some(nets.rewardTower) else None)
  }

  /** The scheduled-sampling rule for one step, stated directly: the
      ground-truth pair during the first `context_frames` steps, then the
      generated pair outside training and the mix of the two in training. */
  ghost predicate Scheduled<T, C>(contextFrames: nat, training: bool, mix: (int, nat, T, T) -> T,
                                  s: StepInputs<T, C>) {
    if s.timeStep < contextFrames then s.inputImage == s.gtImage && s.inputReward == s.gtReward
    else if !training then s.inputImage == s.genImage && s.inputReward == s.genReward
    else s.inputImage == mix(s.timeStep, 0, s.gtImage, s.genImage)
         && s.inputReward == mix(s.timeStep, 1, s.gtReward, s.genReward)
  }

  /** The (image, reward) pair scheduled sampling picks for a step. */
  function Choose<T, C>(m: StepModel<T, C>, timeStep: int, gtImage: T, gtReward: T,
                        genImage: T, genReward: T): (r: (T, T))
    ensures timeStep < m.contextFrames ==> r == (gtImage, gtReward)
    ensures timeStep >= m.contextFrames && !m.training ==> r == (genImage, genReward)
    ensures timeStep >= m.contextFrames && m.training ==>
      r == (m.mix(timeStep, 0, gtImage, genImage), m.mix(timeStep, 1, gtReward, genReward))
  {
    var chosen := SelectInputs(DoneWarmStart(timeStep, m.contextFrames), m.training,
                               [gtImage, gtReward], [genImage, genReward],
                               (i, gt, gen) => m.mix(timeStep, i, gt, gen));
    (chosen[0], chosen[1])
  }

  /** What the towers of a step hand on: the predicted image and reward and
      both towers' new states. */
  datatype Outputs<T, C> = Outputs(image: T, reward: T, lstm: LstmStates<C>, rewardLstm: LstmStates<C>)

  /** The towers replayed on what a step was fed: the predictive tower on the
      chosen pair, the action, the step's states and latent; then the reward
      tower on the same, or, without one, the chosen reward with the reward
      states left as they were. */
  function Outcome<T, C>(m: StepModel<T, C>, s: StepInputs<T, C>): Result<Outputs<T, C>, Error> {
    match m.tower(s.inputImage, s.inputReward, s.action, s.lstm, s.latent)
    case Failure(e) => Failure(e)
    case Success(out) =>
      match m.rewardTower
      case None => Success(Outputs(out.image, s.inputReward, out.state, s.rewardLstm))
      case Some(rewardTower) =>
        var (reward, rewardState) := rewardTower(s.inputImage, s.inputReward, s.action, s.rewardLstm, s.latent);
        Success(Outputs(out.image, reward, out.state, rewardState))
  }

  /** Without a reward tower a step's reward prediction is the reward it
      chose, and the reward states stay as they were. */
  lemma PassThroughReward<T, C>(m: StepModel<T, C>, s: StepInputs<T, C>)
    requires m.rewardTower.None? && Outcome(m, s).Success?
    ensures Outcome(m, s).value.reward == s.inputReward && Outcome(m, s).value.rewardLstm == s.rewardLstm
  {
  }

  /** Step `s` predicted `image` and `reward`: they are what its towers return. */
  ghost predicate Produced<T, C>(m: StepModel<T, C>, s: StepInputs<T, C>, image: T, reward: T) {
    Outcome(m, s).Success? && Outcome(m, s).value.image == image && Outcome(m, s).value.reward == reward
  }

  /** Step `s` continues from outputs `o`: it is offered `o`'s predictions
      as its generated pair and starts from `o`'s states. */
  ghost predicate ContinuesFrom<T, C>(s: StepInputs<T, C>, o: Outputs<T, C>) {
    s.genImage == o.image && s.genReward == o.reward && s.lstm == o.lstm && s.rewardLstm == o.rewardLstm
  }

  /** Step `next` carries on from step `prev`: it continues from what
      `prev`'s towers returned. */
  ghost predicate Threaded<T, C>(m: StepModel<T, C>, prev: StepInputs<T, C>, next: StepInputs<T, C>) {
    Outcome(m, prev).Success? && ContinuesFrom(next, Outcome(m, prev).value)
  }

  /** The recurrence the scan driver and the two-frame driver share: the
      first step starts from `[None] * 7` and `[None] * 5`, every step's
      predictions are its towers' outputs, and every later step carries on
      from the one before. */
  ghost predicate Recurrent<T, C>(m: StepModel<T, C>, steps: seq<StepInputs<T, C>>,
                                  genImages: seq<T>, genRewards: seq<T>) {
    && |genImages| == |steps| && |genRewards| == |steps|
    && (|steps| > 0 ==>
          steps[0].lstm == Unset(MainTowerLayers) && steps[0].rewardLstm == Unset(RewardTowerLayers))
    && (forall k :: 0 <= k < |steps| ==> Produced(m, steps[k], genImages[k], genRewards[k]))
    && (forall k :: 1 <= k < |steps| ==> Threaded(m, steps[k - 1], steps[k]))
  }

  /** The result of a step: what its towers handed on and what it was fed. */
  datatype Advanced<T, C> = Advanced(out: Outputs<T, C>, fed: StepInputs<T, C>)

  /** One step: choose the inputs, run the predictive tower on them from the
      given states, then run the reward tower or pass the chosen reward
      through. */
  function Advance<T, C>(m: StepModel<T, C>, timeStep: int, gtImage: T, gtReward: T, action: T,
                         genImage: T, genReward: T, lstm: LstmStates<C>, rewardLstm: LstmStates<C>,
                         latent: Option<T>): (r: Result<Advanced<T, C>, Error>)
    ensures r.Success? ==> r.value.fed == StepInputs(timeStep, gtImage, gtReward, genImage, genReward,
                                                     action, r.value.fed.inputImage,
                                                     r.value.fed.inputReward, latent, lstm, rewardLstm)
    ensures r.Success? ==> Scheduled(m.contextFrames, m.training, m.mix, r.value.fed)
    ensures r.Success? ==> Outcome(m, r.value.fed) == Success(r.value.out)
    ensures var (inputImage, inputReward) := Choose(m, timeStep, gtImage, gtReward, genImage, genReward);
      r.Failure? <==> m.tower(inputImage, inputReward, action, lstm, latent).Failure?
    ensures var (inputImage, inputReward) := Choose(m, timeStep, gtImage, gtReward, genImage, genReward);
      r.Failure? ==> r.error == m.tower(inputImage, inputReward, action, lstm, latent).error
  {
    var (inputImage, inputReward) := Choose(m, timeStep, gtImage, gtReward, genImage, genReward);
    var out := m.tower(inputImage, inputReward, action, lstm, latent);
    if out.Failure? then Failure(out.error)
    else
      var (reward, rewardState) := match m.rewardTower
        case Some(rewardTower) => rewardTower(inputImage, inputReward, action, rewardLstm, latent)
        case None => (inputReward, rewardLstm);
      var fed := StepInputs(timeStep, gtImage, gtReward, genImage, genReward, action,
                            inputImage, inputReward, latent, lstm, rewardLstm);
      Success(Advanced(Outputs(out.value.image, reward, out.value.state, rewardState), fed))
  }
}

=== FILE: towers.dfy ===
/** The towers the drivers call, seen from outside: every convolution and
    recurrent cell is an uninterpreted function, and only the discrete
    logic around them is modelled (the latent tower's evaluation-mode
    zeros and the predictive tower's mask check and compositing). */
module Towers {
  import opened Wrappers
  import opened Hparams
  import opened Compositing

  /** The list of per-layer recurrent states a tower threads through time;
      `None` is a layer not yet initialised. */
  type LstmStates<C> = seq<Option<C>>

  /** `[None] * n`: the state list before the first step. */
  function Unset<C>(n: nat): (s: LstmStates<C>)
    ensures |s| == n
    ensures forall i :: 0 <= i < n ==> s[i].None?
  {
    seq(n, _ => None)
  }

  /** Lengths of the `[None] * 7` and `[None] * 5` state lists the drivers
      start the main and reward towers from. */
  const MainTowerLayers: nat := 7
  const RewardTowerLayers: nat := 5

  /** What a predictive tower hands back: the predicted image and its new states. */
  datatype TowerOut<T, C> = TowerOut(image: T, state: LstmStates<C>)

  /** `construct_predictive_tower(input_image, input_reward, action, lstm_state, latent)`. */
  type MainTower<!T, !C> = (T, T, T, LstmStates<C>, Option<T>) -> Result<TowerOut<T, C>, Error>

  /** `reward_prediction(input_image, input_reward, action, lstm_state, latent)`. */
  type RewardTower<!T, !C> = (T, T, T, LstmStates<C>, Option<T>) -> (T, LstmStates<C>)

  /** A tower that raises the same error whatever it is given. */
  ghost predicate AlwaysFails<T(!new), C(!new)>(tower: MainTower<T, C>, e: Error) {
    forall a, b, c, s, l :: tower(a, b, c, s, l) == Failure(e)
  }

  /** A tower that returns a result whatever it is given. */
  ghost predicate NeverFails<T(!new), C(!new)>(tower: MainTower<T, C>) {
    forall a, b, c, s, l :: tower(a, b, c, s, l).Success?
  }

  /** `construct_latent_tower`: the convolution stack `conv` over the first
      `latent_num_frames` frames gives (mean, std) in training; outside
      training the tower answers with zeros whatever the frames are. */
  function LatentTower<T>(h: Hparams, conv: seq<T> -> (T, T), zero: T, images: seq<T>): (r: (T, T))
    ensures !h.training ==> r == (zero, zero)
    ensures h.training ==> r == conv(LatentWindow(h, images))
  {
    var stats := conv(LatentWindow(h, images));
    if !h.training then (zero, zero) else stats
  }

  /** Outside training the latent statistics carry no information about the
      frames: any two sequences, seen through any two convolution stacks, give
      the same (mean, std). */
  lemma EvalLatentIgnoresFrames<T>(h: Hparams, conv1: seq<T> -> (T, T), conv2: seq<T> -> (T, T),
                                   zero: T, images1: seq<T>, images2: seq<T>)
    requires !h.training
    ensures LatentTower(h, conv1, zero, images1) == LatentTower(h, conv2, zero, images2)
  {
  }

  /** Everything the layers of the predictive tower compute before the
      compositing: the direct image guess, the CDNA candidates, the DNA
      candidate, the softmax-normalised mask channels and the new states. */
  datatype NetOut<C> = NetOut(direct: Image, cdna: seq<Image>, dna: Image,
                              masks: seq<Image>, state: LstmStates<C>)

  type TowerNet<!C> = (Image, Image, Image, LstmStates<C>, Option<Image>) -> NetOut<C>

  /** Whether the layer outputs line up with the input image: `num_masks + 1`
      mask channels and candidates of the image's size. */
  predicate WellShaped<C>(h: Hparams, o: NetOut<C>, input: Image, transformed: seq<Image>) {
    && |o.masks| == h.numMasks + 1
    && SameSize(o.masks, |input|)
    && SameSize(transformed, |input|)
  }

  /** The layer outputs fit the input image whenever the candidates exist. */
  predicate LayersFit<C>(h: Hparams, o: NetOut<C>, input: Image) {
    var t := Candidates(h, o.direct, o.cdna, o.dna);
    t.Success? ==> WellShaped(h, o, input, t.value)
  }

  /** The predictive tower: the layers `net`, then the DNA mask check, then
      the compositing of the input image and the candidates. */
  function PredictiveTower<C>(h: Hparams, net: TowerNet<C>, inputImage: Image, inputReward: Image,
                              action: Image, state: LstmStates<C>, latent: Option<Image>)
    : (r: Result<TowerOut<Image, C>, Error>)
    ensures h.modelOptions == "DNA" && h.numMasks != 1 ==> r == Failure(DnaNeedsOneMask)
    ensures r.Failure? && r.error == DnaNeedsOneMask ==> h.modelOptions == "DNA" && h.numMasks != 1
    ensures r.Failure? && r.error != DnaNeedsOneMask ==> r.error == ShapeMismatch
    ensures var o := net(inputImage, inputReward, action, state, latent);
      var t := Candidates(h, o.direct, o.cdna, o.dna);
      r.Failure? <==> t.Failure? || !WellShaped(h, o, inputImage, t.value)
    ensures r.Success? ==>
      var o := net(inputImage, inputReward, action, state, latent);
      var t := Candidates(h, o.direct, o.cdna, o.dna).value;
      WellShaped(h, o, inputImage, t) && r.value.image == Composite(o.masks, inputImage, t)
    ensures r.Success? ==> |r.value.image| == |inputImage|
    ensures r.Success? ==> r.value.state == net(inputImage, inputReward, action, state, latent).state
    ensures r.Success? ==> |net(inputImage, inputReward, action, state, latent).masks| == h.numMasks + 1
  {
    var o := net(inputImage, inputReward, action, state, latent);
    var transformed := Candidates(h, o.direct, o.cdna, o.dna);
    if transformed.Failure? then Failure(transformed.error)
    else if !WellShaped(h, o, inputImage, transformed.value) then Failure(ShapeMismatch)
    else Success(TowerOut(Composite(o.masks, inputImage, transformed.value), o.state))
  }

  /** When the layers' masks are nonnegative and normalised at a position and
      every mask channel after the first has a candidate, the tower's output
      there stays within any bounds that hold for the input image and for the
      candidates: the prediction is a convex combination. */
  lemma TowerOutputIsConvex<C>(h: Hparams, net: TowerNet<C>, inputImage: Image, inputReward: Image,
                               action: Image, state: LstmStates<C>, latent: Option<Image>,
                               p: nat, lo: real, hi: real)
    requires PredictiveTower(h, net, inputImage, inputReward, action, state, latent).Success?
    requires p < |inputImage|
    requires var o := net(inputImage, inputReward, action, state, latent);
      && (forall c :: 0 <= c < |o.masks| ==> 0.0 <= o.masks[c][p])
      && MaskWeight(o.masks, p, 0, |o.masks|) == 1.0
    requires lo <= inputImage[p] <= hi
    requires var o := net(inputImage, inputReward, action, state, latent);
      var t := Candidates(h, o.direct, o.cdna, o.dna).value;
      |t| >= h.numMasks && forall k :: 0 <= k < h.numMasks ==> lo <= t[k][p] <= hi
    ensures lo <= PredictiveTower(h, net, inputImage, inputReward, action, state, latent).value.image[p] <= hi
  {
    var o := net(inputImage, inputReward, action, state, latent);
    var t := Candidates(h, o.direct, o.cdna, o.dna).value;
    CompositeIsConvex(o.masks, inputImage, t, p, lo, hi);
  }

  /** Conversely to the DNA check: a tower whose mode passes the check and
      whose layers always fit the input image never raises. */
  lemma FittingTowerNeverFails<C(!new)>(h: Hparams, net: TowerNet<C>)
    requires !(h.modelOptions == "DNA" && h.numMasks != 1)
    requires forall a, b, c, s, l :: LayersFit(h, net(a, b, c, s, l), a)
    ensures forall a, b, c, s, l :: PredictiveTower(h, net, a, b, c, s, l).Success?
  {
    forall a, b, c, s, l
      ensures PredictiveTower(h, net, a, b, c, s, l).Success?
    {
      var o := net(a, b, c, s, l);
      assert LayersFit(h, o, a);
      assert Candidates(h, o.direct, o.cdna, o.dna).Success?;
    }
  }
}

=== FILE: two_frame_driver.dfy ===
/** `NextFrameStochasticTwoFrames.construct_model`: a plain loop over the
    first `T - 1` frames. Each step draws a fresh latent from the latent
    tower run over the ground-truth pair `(images[t], images[t+1])`, and
    the element order is the step's own: image, action, reward. */
module TwoFrameDriver {
  import opened Wrappers
  import opened Hparams
  import opened Towers
  import opened Step

  /** The generated frames and rewards, the latent statistics and what each
      step was fed. */
  datatype Loop<T, C> = Loop(genImages: seq<T>, genRewards: seq<T>, latentMeans: seq<T>,
                             latentStds: seq<T>, steps: seq<StepInputs<T, C>>)

  /** The latent statistics of step `t`: the latent tower over the
      ground-truth pair `[images[t], images[t+1]]`. */
  function PairLatent<T, C>(h: Hparams, nets: Nets<T, C>, images: seq<T>, t: nat): (T, T)
    requires t + 1 < |images|
  {
    LatentTower(h, nets.latentConv, nets.zero, [images[t], images[t + 1]])
  }

  /** What one step of the loop leaves behind: its towers' outputs, its
      latent statistics and the record of what it was fed. */
  datatype Taken<T, C> = Taken(out: Outputs<T, C>, mean: T, std: T, fed: StepInputs<T, C>)

  /** Record `x` is step `t` of the loop: it read `(images[t], rewards[t],
      actions[t])` at time step `t`, its latent statistics come from the
      ground-truth pair `(t, t+1)` and its latent is the draw of step `t`
      from them, scheduled sampling chose its inputs, and its outputs are
      what its towers returned. */
  ghost predicate StepAt<T, C>(h: Hparams, nets: Nets<T, C>, m: StepModel<T, C>,
                               images: seq<T>, actions: seq<T>, rewards: seq<T>, t: nat, x: Taken<T, C>)
    requires |actions| == |images| && |rewards| == |images|
  {
    && t + 1 < |images|
    && x.fed.timeStep == t && x.fed.gtImage == images[t] && x.fed.gtReward == rewards[t]
    && x.fed.action == actions[t]
    && (x.mean, x.std) == PairLatent(h, nets, images, t)
    && x.fed.latent == Some(nets.sample(t, x.mean, x.std))
    && Scheduled(m.contextFrames, m.training, m.mix, x.fed)
    && Outcome(m, x.fed) == Success(x.out)
  }

  /** Step `t` of the loop: a fresh latent, drawn for this step, from the
      ground-truth pair; then the shared step on the element
      `(images[t], actions[t], rewards[t])`, continuing from `prev`. */
  function TakeStep<T(!new), C(!new)>(h: Hparams, nets: Nets<T, C>, m: StepModel<T, C>,
                          images: seq<T>, actions: seq<T>, rewards: seq<T>, t: nat, prev: Outputs<T, C>)
    : (r: Result<Taken<T, C>, Error>)
    requires |actions| == |images| && |rewards| == |images| && t + 1 < |images|
    ensures r.Success? ==> StepAt(h, nets, m, images, actions, rewards, t, r.value)
    ensures r.Success? ==> ContinuesFrom(r.value.fed, prev)
    ensures var stats := PairLatent(h, nets, images, t);
      var (inputImage, inputReward) := Choose(m, t, images[t], rewards[t], prev.image, prev.reward);
      var out := m.tower(inputImage, inputReward, actions[t], prev.lstm, Some(nets.sample(t, stats.0, stats.1)));
      (r.Failure? <==> out.Failure?) && (r.Failure? ==> r.error == out.error)
    ensures NeverFails(m.tower) ==> r.Success?
  {
    var stats := PairLatent(h, nets, images, t);
    var latent := Some(nets.sample(t, stats.0, stats.1));
    var a := Advance(m, t, images[t], rewards[t], actions[t], prev.image, prev.reward,
                     prev.lstm, prev.rewardLstm, latent);
    if a.Failure? then Failure(a.error)
    else Success(Taken(a.value.out, stats.0, stats.1, a.value.fed))
  }

  /** The loop from step `t` on, continuing from the previous step's outputs. */
  function Steps<T(!new), C(!new)>(h: Hparams, nets: Nets<T, C>, m: StepModel<T, C>,
                       images: seq<T>, actions: seq<T>, rewards: seq<T>, t: nat, prev: Outputs<T, C>)
    : (r: Result<seq<Taken<T, C>>, Error>)
    requires |actions| == |images| && |rewards| == |images|
    decreases |images| - t
    ensures r.Success? ==> |r.value| == if t + 1 < |images| then |images| - 1 - t else 0
    ensures r.Success? ==> forall k :: 0 <= k < |r.value| ==>
      StepAt(h, nets, m, images, actions, rewards, t + k, r.value[k])
    ensures r.Success? && |r.value| > 0 ==> ContinuesFrom(r.value[0].fed, prev)
    ensures r.Success? ==> forall k :: 0 < k < |r.value| ==> ContinuesFrom(r.value[k].fed, r.value[k - 1].out)
    ensures NeverFails(m.tower) ==> r.Success?
  {
    if t + 1 >= |images| then Success([])
    else
      var step := TakeStep(h, nets, m, images, actions, rewards, t, prev);
      if step.Failure? then Failure(step.error)
      else
        var rest := Steps(h, nets, m, images, actions, rewards, t + 1, step.value.out);
        if rest.Failure? then Failure(rest.error)
        else Success([step.value] + rest.value)
  }

  /** The five streams of the loop's records. */
  function Unzip<T, C>(ts: seq<Taken<T, C>>): (r: Loop<T, C>)
    ensures |r.genImages| == |ts| && |r.genRewards| == |ts| && |r.latentMeans| == |ts|
    ensures |r.latentStds| == |ts| && |r.steps| == |ts|
    ensures forall k :: 0 <= k < |ts| ==>
      && r.genImages[k] == ts[k].out.image && r.genRewards[k] == ts[k].out.reward
      && r.latentMeans[k] == ts[k].mean && r.latentStds[k] == ts[k].std && r.steps[k] == ts[k].fed
  {
    Loop(seq(|ts|, k requires 0 <= k < |ts| => ts[k].out.image),
         seq(|ts|, k requires 0 <= k < |ts| => ts[k].out.reward),
         seq(|ts|, k requires 0 <= k < |ts| => ts[k].mean),
         seq(|ts|, k requires 0 <= k < |ts| => ts[k].std),
         seq(|ts|, k requires 0 <= k < |ts| => ts[k].fed))
  }

  /** Records whose steps each continue from the previous step's outputs, and
      whose first step starts from unset states, form the shared recurrence. */
  lemma {:induction false} TakenAreRecurrent<T, C>(m: StepModel<T, C>, ts: seq<Taken<T, C>>)
    requires |ts| > 0 ==>
      ts[0].fed.lstm == Unset(MainTowerLayers) && ts[0].fed.rewardLstm == Unset(RewardTowerLayers)
    requires forall k :: 0 <= k < |ts| ==> Outcome(m, ts[k].fed) == Success(ts[k].out)
    requires forall k :: 0 < k < |ts| ==> ContinuesFrom(ts[k].fed, ts[k - 1].out)
    ensures var loop := Unzip(ts); Recurrent(m, loop.steps, loop.genImages, loop.genRewards)
  {
    var loop := Unzip(ts);
    forall k | 0 <= k < |ts|
      ensures Produced(m, loop.steps[k], loop.genImages[k], loop.genRewards[k])
    {
      assert Outcome(m, ts[k].fed) == Success(ts[k].out);
    }
    forall k | 1 <= k < |ts|
      ensures Threaded(m, loop.steps[k - 1], loop.steps[k])
    {
      assert Outcome(m, ts[k - 1].fed) == Success(ts[k - 1].out);
      assert ContinuesFrom(ts[k].fed, ts[k - 1].out);
    }
  }

  /** The facts of each record, read off the streams `Unzip` builds. */
  lemma UnzipKeepsSteps<T, C>(h: Hparams, nets: Nets<T, C>, globalStep: Option<int>,
                              images: seq<T>, actions: seq<T>, rewards: seq<T>, ts: seq<Taken<T, C>>)
    requires |actions| == |images| && |rewards| == |images| && |ts| < |images|
    requires forall k :: 0 <= k < |ts| ==>
      StepAt(h, nets, ModelOf(h, nets, globalStep), images, actions, rewards, k, ts[k])
    ensures var loop := Unzip(ts);
      forall k :: 0 <= k < |loop.steps| ==>
        && loop.steps[k].timeStep == k
        && loop.steps[k].gtImage == images[k]
        && loop.steps[k].gtReward == rewards[k]
        && loop.steps[k].action == actions[k]
        && (loop.latentMeans[k], loop.latentStds[k]) == PairLatent(h, nets, images, k)
        && loop.steps[k].latent == Some(nets.sample(k, loop.latentMeans[k], loop.latentStds[k]))
        && Scheduled(h.videoNumInputFrames, h.training, nets.sampler(ScheduledSampling.SchedulePolicy(h, globalStep)),
                     loop.steps[k])
  {
    var m := ModelOf(h, nets, globalStep);
    var loop := Unzip(ts);
    forall k | 0 <= k < |loop.steps|
      ensures && loop.steps[k].timeStep == k
              && loop.steps[k].gtImage == images[k]
              && loop.steps[k].gtReward == rewards[k]
              && loop.steps[k].action == actions[k]
              && (loop.latentMeans[k], loop.latentStds[k]) == PairLatent(h, nets, images, k)
              && loop.steps[k].latent == Some(nets.sample(k, loop.latentMeans[k], loop.latentStds[k]))
              && Scheduled(h.videoNumInputFrames, h.training,
                           nets.sampler(ScheduledSampling.SchedulePolicy(h, globalStep)), loop.steps[k])
    {
      assert StepAt(h, nets, m, images, actions, rewards, k, ts[k]);
      assert loop.steps[k] == ts[k].fed;
    }
  }

  /** `construct_model` of the two-frame driver: the first step is offered
      `images[0]` and `rewards[0]` as its generated pair, and both towers
      start from unset states. */
  function Run<T(!new), C(!new)>(h: Hparams, nets: Nets<T, C>, globalStep: Option<int>,
                     images: seq<T>, actions: seq<T>, rewards: seq<T>): (r: Result<Loop<T, C>, Error>)
    requires |actions| == |images| && |rewards| == |images|
    ensures |images| == 0 ==> r == Failure(EmptySequence)
    ensures r.Success? ==>
      && |r.value.genImages| == |images| - 1 && |r.value.genRewards| == |images| - 1
      && |r.value.latentMeans| == |images| - 1 && |r.value.latentStds| == |images| - 1
      && |r.value.steps| == |images| - 1
    ensures r.Success? ==> forall k :: 0 <= k < |r.value.steps| ==>
      && r.value.steps[k].timeStep == k
      && r.value.steps[k].gtImage == images[k]
      && r.value.steps[k].gtReward == rewards[k]
      && r.value.steps[k].action == actions[k]
      && (r.value.latentMeans[k], r.value.latentStds[k]) == PairLatent(h, nets, images, k)
      && r.value.steps[k].latent == Some(nets.sample(k, r.value.latentMeans[k], r.value.latentStds[k]))
      && Scheduled(h.videoNumInputFrames, h.training, nets.sampler(ScheduledSampling.SchedulePolicy(h, globalStep)),
                   r.value.steps[k])
    ensures r.Success? && |r.value.steps| > 0 ==>
      r.value.steps[0].genImage == images[0] && r.value.steps[0].genReward == rewards[0]
    ensures r.Success? ==>
      Recurrent(ModelOf(h, nets, globalStep), r.value.steps, r.value.genImages, r.value.genRewards)
    ensures NeverFails(nets.tower) && |images| >= 1 ==> r.Success?
  {
    if |images| == 0 then Failure(EmptySequence)
    else
      var m := ModelOf(h, nets, globalStep);
      var taken := Steps(h, nets, m, images, actions, rewards, 0,
                         Outputs(images[0], rewards[0], Unset(MainTowerLayers), Unset(RewardTowerLayers)));
      if taken.Failure? then Failure(taken.error)
      else
        var ts := taken.value;
        var loop := Unzip(ts);
        TakenAreRecurrent(m, ts);
        UnzipKeepsSteps(h, nets, globalStep, images, actions, rewards, ts);
        Success(loop)
  }

  /** A loop whose tower always raises raises the same error as soon as it
      has a step to run, and has nothing to raise otherwise. */
  lemma {:induction false} StepsFailWhenTowerFails<T(!new), C(!new)>(
    h: Hparams, nets: Nets<T, C>, m: StepModel<T, C>, images: seq<T>, actions: seq<T>, rewards: seq<T>,
    t: nat, prev: Outputs<T, C>, e: Error)
    requires |actions| == |images| && |rewards| == |images|
    requires AlwaysFails(m.tower, e)
    ensures t + 1 < |images| ==> Steps(h, nets, m, images, actions, rewards, t, prev) == Failure(e)
    ensures t + 1 >= |images| ==> Steps(h, nets, m, images, actions, rewards, t, prev) == Success([])
  {
    if t + 1 < |images| {
      var stats := PairLatent(h, nets, images, t);
      var (inputImage, inputReward) := Choose(m, t, images[t], rewards[t], prev.image, prev.reward);
      assert m.tower(inputImage, inputReward, actions[t], prev.lstm, Some(nets.sample(t, stats.0, stats.1))) == Failure(e);
    }
  }

  /** The driver with a tower that always raises: the error on sequences of
      two frames or more, and empty outputs for a single frame. */
  lemma RunFailsWhenTowerFails<T(!new), C(!new)>(h: Hparams, nets: Nets<T, C>, globalStep: Option<int>,
                                                 images: seq<T>, actions: seq<T>, rewards: seq<T>, e: Error)
    requires |actions| == |images| && |rewards| == |images|
    requires AlwaysFails(nets.tower, e)
    ensures |images| >= 2 ==> Run(h, nets, globalStep, images, actions, rewards) == Failure(e)
    ensures |images| == 1 ==> Run(h, nets, globalStep, images, actions, rewards) == Success(Loop([], [], [], [], []))
  {
    if |images| > 0 {
      StepsFailWhenTowerFails(h, nets, ModelOf(h, nets, globalStep), images, actions, rewards, 0,
                              Outputs(images[0], rewards[0], Unset(MainTowerLayers), Unset(RewardTowerLayers)), e);
    }
  }

  /** The latents never see the scheduled-sampling draw: two runs that differ
      only in how generated and ground-truth items are mixed, or in the
      global step, collect the same latent statistics. */
  lemma LatentsIgnoreScheduledSampling<T(!new), C(!new)>(h: Hparams, nets1: Nets<T, C>, nets2: Nets<T, C>,
                                             step1: Option<int>, step2: Option<int>,
                                             images: seq<T>, actions: seq<T>, rewards: seq<T>)
    requires |actions| == |images| && |rewards| == |images|
    requires nets1.latentConv == nets2.latentConv && nets1.zero == nets2.zero
    requires Run(h, nets1, step1, images, actions, rewards).Success?
    requires Run(h, nets2, step2, images, actions, rewards).Success?
    ensures Run(h, nets1, step1, images, actions, rewards).value.latentMeans
         == Run(h, nets2, step2, images, actions, rewards).value.latentMeans
    ensures Run(h, nets1, step1, images, actions, rewards).value.latentStds
         == Run(h, nets2, step2, images, actions, rewards).value.latentStds
  {
  }

  /** Outside training every latent mean and standard deviation the driver
      collects is the zero tensor. */
  lemma EvalLatentsAreZero<T(!new), C(!new)>(h: Hparams, nets: Nets<T, C>, globalStep: Option<int>,
                                 images: seq<T>, actions: seq<T>, rewards: seq<T>)
    requires |actions| == |images| && |rewards| == |images|
    requires !h.training
    requires Run(h, nets, globalStep, images, actions, rewards).Success?
    ensures var r := Run(h, nets, globalStep, images, actions, rewards).value;
      forall k :: 0 <= k < |r.latentMeans| ==> r.latentMeans[k] == nets.zero && r.latentStds[k] == nets.zero
  {
  }
}

=== FILE: wrappers.dfy ===
/** Failure-carrying values: `Option` for the source's `None`, `Result` for
    the exceptions it raises. */
module Wrappers {

  datatype Option<+T> = None | Some(value: T)

  datatype Result<+R, +E> = Success(value: R) | Failure(error: E)
}
